=== FILE: README.md ===
# Unity image tracking — host-side control logic in Dafny

This project models the host-side control logic of a Unity AR image-recognition app. Its parts:

- **Recognition manager pipeline** (`ImageRecognitionManager`):
  - the adaptive FAST threshold loop and its capacity caps;
  - the random BRIEF test table and descriptor sizing;
  - the enrollment catalog of (image, scale power, rotation) targets;
  - best-target selection by match rate;
  - the acceptance gate;
  - the truncated-mean origin estimate with its view check;
  - the `Scan` early exit.
- **Earlier ORB prototype** (`ORB`):
  - its loop always terminates;
  - it has no rate-1 exclusion;
  - it uses `1 << j` scale divisors;
  - it scans on a frame-interval countdown;
  - it has a red-channel min/max scan.
- **Marker enrollment prototype** (`MarkersToKeypoints`): the blur kernel shape, per-scale sizes, and the 2D/flat texture arrays.
- **Tracked-image state machine** of the forest scene manager: two recency lists plus a dictionary, and the rule that picks the current image and scene.
- **Debug overlay**: its 20-frame validity window and prefab assignment.
- **Annotation modal**: the "m:ss" labels, seeking, the play/pause button and the per-frame widget update.
- **Clock hand angles** with step rounding.
- **Box-filter kernel counter**.

The compute shaders are not modelled: FAST, Sobel/Harris, suppression, BRIEF bits and Hamming matching. Their outputs enter the model as inputs:

- a candidate count per round;
- an arg-min array and a matched list per target;
- a suppressed count.

C# details are written out:

- `int` division truncates toward zero (`Base.TruncDiv`);
- `int` arithmetic wraps at 32 bits (`Base.Wrap32`);
- `Random.Range` has an exclusive upper bound;
- a float division by zero gives NaN or +Infinity (`Matching.Rate`).

Thresholds are exact hundredths. The binary32 threshold arithmetic is modelled separately for the ORB loop only (see Findings); the canonical loop, which it affects the same way, is modelled in hundredths. Clock and time formatting use mathematical reals.

Modules and files:

| module | file |
|---|---|
| `Base` | base.dfy |
| `FastThreshold` | fast_threshold.dfy |
| `Brief` | brief.dfy |
| `Enrollment` | enrollment.dfy |
| `Matching` | matching.dfy |
| `ScanCadence` | scan_cadence.dfy |
| `Intensity` | intensity.dfy |
| `BlurKernel` | blur_kernel.dfy |
| `MarkerKeypoints` | marker_keypoints.dfy |
| `TrackedImages` | tracked_images.dfy |
| `DebugOverlay` | debug_overlay.dfy |
| `AnnotationPlayback` | annotation_playback.dfy |
| `Clock` | clock.dfy |
| `BoxFilter` | box_filter.dfy |

The annotation modal has one behaviour worth knowing. With a clip loaded, every widget update keeps exactly one seek handler attached while the slider is unlocked. However, the no-clip branch of the update never detaches the handler. Switching from a stopped clip to an annotation without audio, and back, therefore attaches it twice. This is harmless because seeking is idempotent (`AnnotationPlayback.NoClipFrameDoublesHandler`, `AnnotationPlayback.SeekLandsInClip`). The seek handler measures against the clip loaded into the audio source, which only the play/pause button sets. So a drag before the first press finds no clip and throws, unless the scene preassigned one. After a switch of annotation, the handler measures against the previous clip (`AnnotationPlayback.Seek`, `AnnotationPlayback.StaleClipRewinds`).

## Model

| member | source | states |
|---|---|---|
| FastThreshold.AdaptiveFast | Assets/ImageRecognition/ImageRecognitionManager.cs:277-305 | The loop exits only with a positive last count, and then only when it is at least 200 or the already-decremented threshold is below 0.10. The guard held after every earlier round. It reports None only if the guard still holds after `fuel` rounds. |
| FastThreshold.BlankFrameNeverExits | Assets/ImageRecognition/ImageRecognitionManager.cs:280 | If every round counts 0 corners, the guard holds after any number of rounds, so the loop never ends. |
| FastThreshold.ExitsOnceCornersAppear | Assets/ImageRecognition/ImageRecognitionManager.cs:280-305 | If every round reports some candidate, the guard has failed by round 7. |
| FastThreshold.Capped | Assets/ImageRecognition/ImageRecognitionManager.cs:310-348 | The candidate array has length min(count, 800). The reported keypoint count is min(suppressed, 200). |
| FastThreshold.OrbLoop | Assets/MarkerDetection/ORB.cs:286-310 | The corrected loop of the Findings row, in exact hundredths. Entered at any round, the loop ends by round 7 with its guard false. The guard held after every intermediate round. |
| FastThreshold.OrbFast | Assets/MarkerDetection/ORB.cs:284-310 | The corrected loop of the Findings row: the ORB loop always terminates after 1 to 7 rounds. On exit the count is at least 500 or the threshold is below 0.10. |
| FastThreshold.OrbBlankFrameRunsEveryRound | Assets/MarkerDetection/ORB.cs:286-310 | In the corrected loop, with no corners, all 7 rounds run; the last one is at exactly 0.10. |
| FastThreshold.OrbCapped | Assets/MarkerDetection/ORB.cs:315-357 | The candidate array has length min(count, 1000). The suppressed count is returned unclamped. |
| FastThreshold.Float32ThresholdsAreRoundedSteps | Assets/MarkerDetection/ORB.cs:37-39 | Each entry of the binary32 threshold table is the correctly rounded result of subtracting 0.05f from the previous entry. |
| FastThreshold.SixthFloat32ThresholdBelowMinimum | Assets/MarkerDetection/ORB.cs:37-39 | After six float subtractions the threshold is below 0.1f. In exact arithmetic it would equal 0.10. |
| FastThreshold.OrbLoopAsWritten | Assets/MarkerDetection/ORB.cs:286-310 | The loop as written, with binary32 thresholds. Entered at any round up to 6, it stops by round 6 with its guard false, having held the guard after every intermediate round; the reported threshold is the binary32 value after that many subtractions. |
| FastThreshold.AsWrittenBlankFrame | Assets/MarkerDetection/ORB.cs:286-310 | On a blank frame, the as-written loop stops at round 6 from any starting round. |
| FastThreshold.AsWrittenSkipsMinimumThreshold | Assets/MarkerDetection/ORB.cs:286-310 | On a blank frame, the as-written loop's last threshold is 0.15. The corrected loop's last threshold is the 0.10 floor. |
| Brief.RandomRange | Assets/ImageRecognition/ImageRecognitionManager.cs:201-204 | An integer draw lies in [lo, hi): the upper bound is exclusive. |
| Brief.LowerBoundIsMinusHalf | Assets/ImageRecognition/ImageRecognitionManager.cs:201 | The truncating `-patchSize / 2` is exactly minus the half patch, and it lies below the exclusive upper bound. |
| Brief.DrawOffset | Assets/ImageRecognition/ImageRecognitionManager.cs:201-204 | Every drawn offset component lies in [-patchSize/2, patchSize/2]. |
| Brief.GenerateBriefTests | Assets/ImageRecognition/ImageRecognitionManager.cs:191-205 | There are exactly `numTests` tests, and every component of every test lies within half a patch. |
| Brief.DrawOffsetHits | Assets/ImageRecognition/ImageRecognitionManager.cs:201-204 | Every in-patch value is produced by some draw, so the bound is tight. |
| Brief.EveryInPatchTestIsDrawable | Assets/ImageRecognition/ImageRecognitionManager.cs:191-205 | Every in-patch test is the table produced by some choice of draws. |
| Brief.DescriptorSizing | Assets/ImageRecognition/ImageRecognitionManager.cs:362-363 | With 128 tests, both the GPU buffer and the host array hold exactly four 32-bit words (one bit per test) per keypoint. |
| Enrollment.RotationList | Assets/ImageRecognition/ImageRecognitionManager.cs:559-571 | With rotation types on, the configured list is used unchanged. Otherwise the list has 360/angle entries, entry i being i·angle: it starts at 0, every multiple of the angle below 360 appears, and it is strictly increasing. |
| Enrollment.ScalePowers | Assets/ImageRecognition/ImageRecognitionManager.cs:552-554 | The scale powers are maxScalePower, maxScalePower-1, …, maxScalePower-numScales+1. |
| Enrollment.ScaledSize | Assets/ImageRecognition/ImageRecognitionManager.cs:555-556 | For p ≥ 0 the side is exactly size·2^p. For p < 0 it is the largest r with r·2^−p ≤ size, i.e. the truncated quotient. So a non-negative power never shrinks a side and a non-positive one never grows it. |
| Enrollment.CatalogEntry | Assets/ImageRecognition/ImageRecognitionManager.cs:548-633 | The catalog has images × scales × rotations entries. With R the number of rotations, the entry at (i·numScales+j)·R+k is image i at power maxScalePower-j and rotation k, with the matching scaled size. |
| Enrollment.ScaleDivisor | Assets/MarkerDetection/ORB.cs:510 | `1 << j` is computed as a 32-bit shift; read as a number it is 2^j, positive for shifts below 31 (proved by `Enrollment.ShiftIsPow2`). |
| Enrollment.DividedSizeHalves | Assets/MarkerDetection/ORB.cs:510-512 | The side at scale j+1 is the side at scale j halved (integer division), so it never grows. |
| Enrollment.DividedSizeMonotone | Assets/MarkerDetection/ORB.cs:510-512 | Sides are non-increasing across scales. |
| Enrollment.OrbCatalogEntry | Assets/MarkerDetection/ORB.cs:504-577 | The ORB catalog has images × 5 × 12 entries. The entry for (i, j, k) has divisor 2^j, sides divided by 2^j, and the k-th fixed rotation. |
| Matching.RateOf | Assets/ImageRecognition/ImageRecognitionManager.cs:427 | The rate is NaN for 0/0 and +Infinity for n/0. Otherwise it is the exact quotient. |
| Matching.EligibleRates | Assets/ImageRecognition/ImageRecognitionManager.cs:434 | A canonical rate can win iff the target has keypoints and not all of them matched. An earlier-variant rate can win iff it is not NaN. |
| Matching.Select | Assets/ImageRecognition/ImageRecognitionManager.cs:388-448 | None iff no rate is eligible. Otherwise the winner is eligible, no eligible rate exceeds it, and it strictly beats every earlier eligible rate, so ties keep the earlier target. |
| Matching.CanonicalNeverChoosesFullMatch | Assets/ImageRecognition/ImageRecognitionManager.cs:434 | A target with every keypoint matched, or with no keypoints, is never chosen. |
| Matching.EarlierChoosesFullMatch | Assets/MarkerDetection/ORB.cs:443 | The earlier variant chooses a full match that the canonical variant rejects. |
| Matching.SumXWithin | Assets/ImageRecognition/ImageRecognitionManager.cs:459-467 | If every x displacement is in [lo, hi], their sum is in [n·lo, n·hi]. |
| Matching.SumYWithin | Assets/ImageRecognition/ImageRecognitionManager.cs:459-467 | If every y displacement is in [lo, hi], their sum is in [n·lo, n·hi]. |
| Matching.TruncDivWithin | Assets/ImageRecognition/ImageRecognitionManager.cs:469 | The truncated quotient of a value in [n·lo, n·hi] lies in [lo, hi]. |
| Matching.MeanWithin | Assets/ImageRecognition/ImageRecognitionManager.cs:459-469 | The origin lies within any box containing every displacement. |
| Matching.UniformDisplacement | Assets/ImageRecognition/ImageRecognitionManager.cs:459-469 | If every pair has the same displacement d, the origin is d. |
| Matching.FeatureMatch | Assets/ImageRecognition/ImageRecognitionManager.cs:457-530 | A result is returned only when all of these hold: it is the selected target, it has more than 3 matches, its rate is in (0.0001, 1), its origin is the truncated mean displacement, that origin is inside [-w, w)×[-h, h), and the pose stage accepted it. |
| Matching.FeatureMatchAccepts | Assets/ImageRecognition/ImageRecognitionManager.cs:457-530 | Conversely, a selected target that clears every gate is returned. |
| Matching.RateGateImpliedByCount | Assets/ImageRecognition/ImageRecognitionManager.cs:457 | With at most 200 keypoints per target, more than 3 matches already implies a rate above 0.0001. |
| Matching.EarlierFeatureMatch | Assets/MarkerDetection/ORB.cs:461-478 | The earlier variant returns the mean offset of the earlier-variant winner. The result is None iff there is no winner or the winner has at most 3 matches; there is no rate floor and no view check. |
| Matching.Scan | Assets/ImageRecognition/ImageRecognitionManager.cs:738-751 | No event fires for a frame without keypoints. Otherwise an event fires iff `FeatureMatch` returns a target, and the event carries that target: the selected index, with more than 3 matches and an in-view origin. |
| ScanCadence.Step | Assets/MarkerDetection/ORB.cs:628-682 | A frame scans iff the countdown is ≤ 0, and the countdown then restarts at interval-1 (an `int`, wrapping only for the smallest interval). Otherwise the countdown becomes exactly one less and stays non-negative. |
| ScanCadence.CountdownValue | Assets/MarkerDetection/ORB.cs:623-682 | Before frame n the countdown is the distance from n to the next multiple of the interval. |
| ScanCadence.ScansEveryInterval | Assets/MarkerDetection/ORB.cs:623-682 | Starting from 0, the pipeline runs exactly on frames divisible by the interval. |
| ScanCadence.ShortIntervalScansEveryFrame | Assets/MarkerDetection/ORB.cs:623-682 | An interval ≤ 1, above the smallest `int`, scans on every frame. |
| ScanCadence.SmallestIntervalWraps | Assets/MarkerDetection/ORB.cs:629 | At the smallest `int`, `interval-1` wraps to the largest one, so frame 1 does not scan. |
| Intensity.RedExtremes | Assets/MarkerDetection/MarkersToKeypoints.cs:128-134 | Every red value lies between the results. For non-empty input, both results are attained. For empty input they stay 255 and 0. `NormalizeRT` in ORB.cs (lines 264-270) runs the same scan. |
| BlurKernel.PlaceWeights | Assets/MarkerDetection/MarkersToKeypoints.cs:40-51 | The kernel has length 2r+1, with k[r+t] = k[r−t] = w[t]. The endpoints stay 0. The running sum equals the kernel's sum and is positive when r > 0. |
| BlurKernel.SumDivided | Assets/MarkerDetection/MarkersToKeypoints.cs:53-56 | Dividing every entry by c divides the sum by c. |
| BlurKernel.OneDimensionalKernel | Assets/MarkerDetection/MarkersToKeypoints.cs:38-58 | None iff radius is 0, which is the 0/0 case. Otherwise the kernel has length 2r+1, is symmetric about r, has zero endpoints, has entries w[t]/total, and sums to 1. |
| MarkerKeypoints.ScaleTexture | Assets/MarkerDetection/MarkersToKeypoints.cs:86-88 | The divisor is 2^j, and each side is the floor of the marker side divided by it. |
| MarkerKeypoints.ScaleTexturesShrink | Assets/MarkerDetection/MarkersToKeypoints.cs:84-88 | Texture sides are non-increasing in the scale index. |
| MarkerKeypoints.FlatAgreesWithGrid | Assets/MarkerDetection/MarkersToKeypoints.cs:157-158 | The flat index i·numScales+j is below count·numScales, and the flat array holds there the same texture as the grid at [i, j]. |
| MarkerKeypoints.FlatIndexInjective | Assets/MarkerDetection/MarkersToKeypoints.cs:158 | Distinct (i, j) pairs get distinct flat indices. |
| TrackedImages.RemoveFirst | Assets/Scripts/ForestSceneManager.cs:79 | `List.Remove` deletes the first occurrence only, leaving the rest in order. |
| TrackedImages.UpdateImages | Assets/Scripts/ForestSceneManager.cs:72-98 | Tracking maps the name and puts it last in the tracked list. A Limited event that takes effect maps it and puts it last in the limited list. A duplicate Limited event changes nothing. Any other state unmaps the name. |
| TrackedImages.RemovedFromBoth | Assets/Scripts/ForestSceneManager.cs:92-96 | Removing a name from both lists of a valid state leaves duplicate-free, disjoint lists covering the other names. |
| TrackedImages.AddedToOne | Assets/Scripts/ForestSceneManager.cs:78-89 | Appending an absent name to either list restores validity. |
| TrackedImages.UpdatePreservesValid | Assets/Scripts/ForestSceneManager.cs:72-98 | Every event keeps both lists duplicate-free and disjoint, with their union equal to the dictionary's keys. The name then sits only where its event puts it. |
| TrackedImages.UpdateLeavesOthers | Assets/Scripts/ForestSceneManager.cs:72-98 | An event leaves other names' entries unchanged, and keeps their relative order in both lists. |
| TrackedImages.ApplyEventsPreservesValid | Assets/Scripts/ForestSceneManager.cs:54-69 | A batch of added, updated and removed events keeps the invariant. |
| TrackedImages.InitialValid | Assets/Scripts/ForestSceneManager.cs:24-26 | The empty initial state is valid. |
| TrackedImages.CurrentImage | Assets/Scripts/ForestSceneManager.cs:139-151 | On a valid state the chosen name is in the dictionary, so looking up its transform succeeds, and there is no choice iff the dictionary is empty. The choice is the last tracked name when one exists, else the last limited name. |
| TrackedImages.EventSelectsImage | Assets/Scripts/ForestSceneManager.cs:77-90 | A Tracking event makes its image current. So does a Limited event that takes effect, when nothing is tracked. |
| TrackedImages.ImageToScene | Assets/Scripts/ForestSceneManager.cs:38-47 | Every image of some scene is mapped to a scene containing it, and the last such scene wins. |
| TrackedImages.UpdateView | Assets/Scripts/ForestSceneManager.cs:139-179 | As written. With no current image the scene is hidden, but the remembered name and scene are kept. A scene is placed iff the current image's name differs from the remembered one and has a scene, and it is then that image's scene; it is visible iff it differs from the previous scene or that one was visible. An unmapped name is a missing-key fault, raised after the name was remembered and before anything else changes. |
| TrackedImages.SameImageStaysHidden | Assets/Scripts/ForestSceneManager.cs:148-166 | After every image is lost, re-tracking the same image neither re-places nor reshows the scene. |
| TrackedImages.SameSceneStaysHidden | Assets/Scripts/ForestSceneManager.cs:148-178 | After every image is lost, tracking another image of the same scene places the scene but leaves it hidden. |
| TrackedImages.UpdateViewCorrected | Assets/Scripts/ForestSceneManager.cs:139-179 | The corrected update of the Findings row: losing every image forgets the scene. With no current image it returns to the initial view. It keeps views consistent (a held scene is visible; a named image with a scene holds it). From a consistent view, whenever the current image has a scene, that scene is held and visible afterwards. |
| DebugOverlay.Update | Assets/Scripts/DebugCanvas.cs:67-70 | The counter is incremented before the test, to the 32-bit value congruent to counter+1 (exactly counter+1 without overflow); nothing else changes. The overlay shows iff a target is stored and the counter is below 20. |
| DebugOverlay.UpdatesCount | Assets/Scripts/DebugCanvas.cs:69 | After n ≤ 2^31−1 updates from 0, the counter is n. |
| DebugOverlay.ShownForNineteenUpdates | Assets/Scripts/DebugCanvas.cs:67-99 | After a recognition, the n-th update shows the overlay iff n < 20. |
| DebugOverlay.ReappearsAfterWrap | Assets/Scripts/DebugCanvas.cs:69-70 | Update 2^31 wraps the counter negative, and the old target shows again. |
| DebugOverlay.CreateObject | Assets/Scripts/DebugCanvas.cs:35-59 | Nothing happens without a fresh target. A spawn records a new instance for the name and the prefab it used, and leaves every other image's entries unchanged. With no prefabs, a new name divides by zero. |
| DebugOverlay.CreateObjectKeepsValid | Assets/Scripts/DebugCanvas.cs:41-55 | The prefab index is valid. An existing name keeps its prefab; a new name gets count mod prefabs. The dictionaries keep equal keys, which grow by at most one. |
| DebugOverlay.PrefabsCycle | Assets/Scripts/DebugCanvas.cs:46-50 | The first two distinct images get prefabs 0 and 1. |
| BoxFilter.Increment | Assets/Shader/BoxFilterTest.cs:61-64 | The result is the 32-bit value congruent to k+n modulo 2^32, so it adds exactly n when there is no overflow. |
| BoxFilter.Decrement | Assets/Shader/BoxFilterTest.cs:65-68 | The result is never negative: it is 0 or the 32-bit value congruent to k−n. Without overflow it is k−n when k ≥ n, and 0 when n > k. |
| BoxFilter.DecrementUndoesIncrement | Assets/Shader/BoxFilterTest.cs:61-68 | For any non-negative kernel size, decrementing by n undoes incrementing by n, even across overflow. |
| BoxFilter.IncrementCanGoNegative | Assets/Shader/BoxFilterTest.cs:63 | Incrementing the largest `int` gives a negative size. |
| Clock.HandRatios | Assets/MarkerDetection/Clock.cs:40-48 | The minute angle is 12× the hour angle, and the second angle is 60× the minute angle. At elapsed 0 the hour angle is startHour·30. |
| Clock.Snap | Assets/MarkerDetection/Clock.cs:51-53 | For power ≥ 1 the result lies in [⌊a/d⌋·d, ⌊a/d⌋·d + 1). |
| Clock.SnapKeepsMultiples | Assets/MarkerDetection/Clock.cs:51-53 | An angle that is a whole number of steps is unchanged. |
| Clock.SnapPowerZero | Assets/MarkerDetection/Clock.cs:51-53 | Power 0 always adds a full degree to the floor. |
| Clock.SnapNear | Assets/MarkerDetection/Clock.cs:51-53 | For a damping power ≥ 1, a snapped angle is less than one step below the raw angle and less than one degree above it. For power 0 it lies in (raw − step + 1, raw + 1], reaching raw + 1 on a whole number of steps. |
| Clock.HandAngles | Assets/MarkerDetection/Clock.cs:40-54 | Without rounding, the raw angles are used. With rounding, each hand is within (raw − step, raw + 1) for a damping power ≥ 1, and within (raw − step, raw + 1] for power 0. |
| AnnotationPlayback.Fmod | Assets/Scripts/AnnotationModal.cs:143 | The float remainder has the sign of the dividend and a magnitude below the divisor. |
| AnnotationPlayback.TimeFieldsOfNonNegative | Assets/Scripts/AnnotationModal.cs:140-144 | For t ≥ 0: minutes ≥ 0, seconds in [0, 59], and minutes·60 + seconds = ⌊t⌋. |
| AnnotationPlayback.NegativeTimeFields | Assets/Scripts/AnnotationModal.cs:142-143 | −30 s gives fields (−1, −30). |
| AnnotationPlayback.Digits | Assets/Scripts/AnnotationModal.cs:145 | The `0` format: at least one digit, no leading zero, and denoting n. |
| AnnotationPlayback.Format | Assets/Scripts/AnnotationModal.cs:145 | A non-negative number is zero-padded to the width and denotes the number. |
| AnnotationPlayback.FormatTime | Assets/Scripts/AnnotationModal.cs:140-148 | For t ≥ 0 the label is digits, a colon and exactly two digits. The minutes have no leading zero. |
| AnnotationPlayback.LabelShape | Assets/Scripts/AnnotationModal.cs:145 | Minutes ≥ 0 and seconds < 60 print as an unpadded minutes field, a colon and a two-digit seconds field. |
| AnnotationPlayback.FormatTimeRoundTrip | Assets/Scripts/AnnotationModal.cs:140-148 | Reading a label for t ≥ 0 back gives exactly (⌊t/60⌋, ⌊t mod 60⌋). |
| AnnotationPlayback.FormatTimeInjective | Assets/Scripts/AnnotationModal.cs:140-148 | Two non-negative times share a label iff they share their fields. |
| AnnotationPlayback.SetPlaybackTime | Assets/Scripts/AnnotationModal.cs:78-85 | The new position, given the loaded clip's length. For a clip of positive length, a seek to a non-negative position always lands inside the clip, [0, length): at or past the end it goes to 0, otherwise exactly to `time`. |
| AnnotationPlayback.Seek | Assets/Scripts/AnnotationModal.cs:76-86 | The handler fails (the source's null reference) exactly when no clip is loaded into the source. Otherwise it changes only the playback time, measured against the loaded clip's length: at or past its end it rewinds to 0, otherwise it goes exactly to `time`, landing in [0, length) for a positive length. |
| AnnotationPlayback.PressLoadsClipForSeek | Assets/Scripts/AnnotationModal.cs:51-86 | After a press with an effect, seeking never fails and is measured against the modal's clip. |
| AnnotationPlayback.StaleClipRewinds | Assets/Scripts/AnnotationModal.cs:76-86 | With a shorter clip still loaded than the modal's current one, a seek past the old clip's end but within the slider's range rewinds to 0. |
| AnnotationPlayback.SeekLandsInClip | Assets/Scripts/AnnotationModal.cs:76-86 | For a positive length, a seek lands in [0, length), and seeking again to that point changes nothing. |
| AnnotationPlayback.PlayPause | Assets/Scripts/AnnotationModal.cs:51-74 | Nothing changes without a source or clip. Otherwise the clip is loaded, the press toggles playing, and nothing else changes except the slider on a restart: playing → pause; stopped at 0 → slider 0 and play; else → unpause. |
| AnnotationPlayback.PressTwice | Assets/Scripts/AnnotationModal.cs:51-74 | Two presses restore the playing state and the time. A pause followed by a press resumes, or restarts at time 0. |
| AnnotationPlayback.Update | Assets/Scripts/AnnotationModal.cs:88-138 | Without a clip: slider 0 and locked, both labels "#:##", button disabled, play graphic, and handlers untouched. With a clip: labels formatted; locked and following the time while playing; unlocked with the play graphic while stopped. Locking sets the handler count to 0 and unlocking adds one; every other branch leaves the count unchanged. |
| AnnotationPlayback.UpdateWithClipKeepsWired | Assets/Scripts/AnnotationModal.cs:103-134 | With a clip, exactly one seek handler stays attached while the slider is unlocked, and it is unlocked iff playback is stopped. |
| AnnotationPlayback.NoClipFrameDoublesHandler | Assets/Scripts/AnnotationModal.cs:90-134 | A no-clip frame between two stopped frames leaves two handlers attached. |
| AnnotationPlayback.PauseGraphicOnlyOnLockingFrame | Assets/Scripts/AnnotationModal.cs:114-123 | The pause graphic is set only on the update that locks the slider. |

## Left out

- The compute-shader kernels (FAST, Sobel/Harris, suppression, BRIEF bits, Hamming matching, blur, gray, rotation) run on the GPU as compute shaders and are outside this host-side model, so their outputs are inputs.
- GPU plumbing is left out as I/O. This covers buffer and texture allocation, `SetData`/`GetData`, `CopyCount`, `Dispatch`, `Blit`, release, PNG export and `ReadRT2Tex`. So is a capacity overflow inside `GetData`.
- The floating-point scale and depth estimate of `FeatureMatch` is reduced to the boolean parameter `poseAccepted`. It is trigonometry on floats.
- Quaternion placement, the viewport re-track test (`UpdateViewedImages`), the overlay's corner positions and the pendulum's sine are floating-point geometry. The re-track test enters `TrackedImages.UpdateImages` only as its `retrack` flag.
- Randomness in `GenerateBriefTests` is a parameter: a sequence of raw draws.
- The Gaussian weights of the blur kernel are inputs (any positive values); only the kernel's shape and normalisation are modelled.
- The enrollment catalog's `HashSet` of struct targets is modelled as a sequence in insertion order.
- Unity lifecycle, events, AR anchors, audio playback, widget rendering and the Candle, AnnotationData and ForestScene scripts are left out. They hold data or delegate to engine code.
- FastThreshold.AdaptiveFast: the loop that never ends on a blank frame is observed through a `fuel` bound. It uses exact hundredths. In binary32 the canonical loop, like the ORB one, never tries the 0.10 threshold (see Findings).
- Matching.FeatureMatch: rates are exact reals, not binary32 quotients. The origin sum does not model 32-bit overflow. The source's NaN checks on integer components are always false, so they are omitted. Well-formed kernel indices (`IndicesInRange`) are a precondition rather than an out-of-range fault; the same precondition (`WellFormed`, which also pairs each target with its kernel output) is carried by `Matching.FeatureMatchAccepts`, `Matching.EarlierFeatureMatch` and `Matching.Scan`.
- Enrollment.ScaleDivisor: limited to shifts below 31, where `1 << j` is still a positive `int`; the same holds for `MarkerKeypoints.ScaleTexture`.
- Enrollment.ScaledSize: `(int)(2^p * size)` is modelled as exact integer scaling, without float rounding of large sizes.
- BlurKernel.OneDimensionalKernel: the weights, their total and the division are exact reals, so "sums to 1" holds only there; the source's float kernel sums to 1 up to rounding.
- Clock.HandAngles: requires a non-zero `realMinutesPerHour` and a positive rounding step, and the damping power is a natural number. The source's float division by zero or by a negative step is not modelled.
- AnnotationPlayback.Seek: clip lengths are a parameter; the audio engine's own clamping of `time` is not modelled.
- AnnotationPlayback.FormatTime: `FloorToInt` is modelled without its 32-bit conversion, over exact reals.
- TrackedImages.UpdateView: a name with no scene is reported as the flag `missingScene`, in place of the dictionary's `KeyNotFoundException`.
- DebugOverlay.CreateObject: the instance object is identified by a counter, and the anchor and pose are not modelled.

## Findings

| source | as written | input that shows it | evidently intended | confidence | as-written member | corrected member |
|---|---|---|---|---|---|---|
| Assets/MarkerDetection/ORB.cs:286-310 | `threshold -= 0.05f` in binary32 from 0.4f reaches 0.099999994 after six steps, which is below `minFastThreshold` 0.1f, so the loop guard fails one round early. | A frame with no corners: the thresholds tried are 0.40 … 0.15 (6 rounds), and 0.10 is never tried. | The 7th round runs at the configured floor 0.10. | not executed | FastThreshold.AsWrittenSkipsMinimumThreshold | FastThreshold.OrbFast |
| Assets/Scripts/ForestSceneManager.cs:148-178 | When every image is lost the scene is hidden, but `currentImageName` and `currentForestScene` are kept. The scene is re-activated only when a different scene is chosen. | Track image a of scene S, lose every image, then track a again (or another image of S): the scene stays hidden. | The next tracked image's scene is shown again. | not executed; medium (the hiding may be deliberate, but nothing ever shows the scene again until a different scene is chosen) | TrackedImages.SameSceneStaysHidden | TrackedImages.UpdateViewCorrected |

=== FILE: annotation_playback.dfy ===
/** The annotation modal's audio playback controls: the "m:ss" time labels,
    the slider's seek handler, the play/pause button and the per-frame widget
    update. Times are mathematical reals; the audio engine is reduced to the
    source's `isPlaying` flag and its playback time. */
module AnnotationPlayback {
  import opened Base

  /** C# truncation toward zero of a real. */
  function Trunc(x: real): int { if x >= 0.0 then x.Floor else -((-x).Floor) }

  /** C# `%` on floats: the remainder of a truncated division, which takes the
      sign of the dividend. */
  function Fmod(a: real, b: real): (r: real)
    requires b > 0.0
    ensures a >= 0.0 ==> 0.0 <= r < b
    ensures a < 0.0 ==> -b < r <= 0.0
  {
    FmodBounds(a, b);
    a - b * Trunc(a / b) as real
  }

  /** The truncated quotient is at most one away from the exact one, on
      the side of zero. */
  lemma TruncBounds(x: real)
    ensures x >= 0.0 ==> 0.0 <= x - Trunc(x) as real < 1.0
    ensures x < 0.0 ==> -1.0 < x - Trunc(x) as real <= 0.0
  {
    if x < 0.0 {
      var f := (-x).Floor;
      assert f as real <= -x < f as real + 1.0;
      assert Trunc(x) == -f;
    } else {
      var f := x.Floor;
      assert f as real <= x < f as real + 1.0;
      assert Trunc(x) == f;
    }
  }

  lemma FmodBounds(a: real, b: real)
    requires b > 0.0
    ensures a >= 0.0 ==> 0.0 <= a - b * Trunc(a / b) as real < b
    ensures a < 0.0 ==> -b < a - b * Trunc(a / b) as real <= 0.0
  {
    var x := a / b;
    QuotientSign(a, b);
    TruncBounds(x);
    RemainderBounds(a, b, x, Trunc(x) as real);
  }

  /** If a = b * x and q is x truncated, a - b * q keeps the sign of a and
      stays below b in magnitude. */
  lemma RemainderBounds(a: real, b: real, x: real, q: real)
    requires b > 0.0 && b * x == a && (x >= 0.0 <==> a >= 0.0)
    requires x >= 0.0 ==> 0.0 <= x - q < 1.0
    requires x < 0.0 ==> -1.0 < x - q <= 0.0
    ensures a >= 0.0 ==> 0.0 <= a - b * q < b
    ensures a < 0.0 ==> -b < a - b * q <= 0.0
  {
    var g := x - q;
    var r := a - b * q;
    assert r == b * g by {
      assert b * g == b * x - b * q;
    }
    ScaleUnitInterval(g, b);
    if a >= 0.0 {
      assert 0.0 <= g;
      assert 0.0 <= b * g < b;
    } else {
      assert g <= 0.0;
      assert -b < b * g <= 0.0;
    }
  }

  /** Dividing by a positive number keeps the sign. */
  lemma QuotientSign(a: real, b: real)
    requires b > 0.0
    ensures b * (a / b) == a
    ensures a / b >= 0.0 <==> a >= 0.0
  {
    var x := a / b;
    assert b * x == a;
    if x < 0.0 {
      assert b * (-x) > 0.0;
    } else {
      assert b * x >= 0.0;
    }
  }

  /** Scaling by a positive b maps (-1, 1) into (-b, b), keeping signs. */
  lemma ScaleUnitInterval(x: real, b: real)
    requires b > 0.0 && -1.0 < x < 1.0
    ensures 0.0 <= x ==> 0.0 <= b * x < b
    ensures x <= 0.0 ==> -b < b * x <= 0.0
  {
    assert b - b * x == b * (1.0 - x);
    assert b + b * x == b * (1.0 + x);
  }

  /** The two integer fields `FormatTime` prints. */
  datatype Fields = Fields(minutes: int, seconds: int)

  function TimeFields(t: real): Fields
  {
    Fields(Floor(t / 60.0), Floor(Fmod(t, 60.0)))
  }

  /** For a non-negative time the fields are whole minutes and the leftover
      whole seconds, below 60, and together they give the whole seconds. */
  lemma TimeFieldsOfNonNegative(t: real)
    ensures t >= 0.0 ==> 0 <= TimeFields(t).seconds <= 59
    ensures t >= 0.0 ==> TimeFields(t).minutes >= 0
    ensures t >= 0.0 ==> TimeFields(t).minutes * 60 + TimeFields(t).seconds == Floor(t)
  {
    if t < 0.0 { return; }
    var m := Floor(t / 60.0);
    var r := t - 60.0 * m as real;
    assert Fmod(t, 60.0) == r;
    assert m as real <= t / 60.0 < m as real + 1.0;
    assert 0.0 <= r < 60.0;
    var s := Floor(r);
    assert s as real <= r < s as real + 1.0;
    assert (m * 60 + s) as real <= t < (m * 60 + s) as real + 1.0;
  }

  /** A negative time (which the audio engine does not report) gives a
      negative seconds field as well as a negative minutes field. */
  lemma NegativeTimeFields()
    ensures TimeFields(-30.0) == Fields(-1, -30)
  {
    assert Trunc(-30.0 / 60.0) == 0;
  }

  function DigitChar(d: int): char
    requires 0 <= d < 10
  {
    "0123456789"[d]
  }

  predicate IsDigit(c: char) { '0' <= c <= '9' }

  predicate AllDigits(s: string) { forall i :: 0 <= i < |s| ==> IsDigit(s[i]) }

  /** The number a string of decimal digits denotes. */
  function Value(s: string): nat
    requires AllDigits(s)
  {
    if |s| == 0 then 0 else Value(s[..|s| - 1]) * 10 + (s[|s| - 1] - '0') as int
  }

  /** The shortest decimal numeral of n: the `0` custom format. */
  function Digits(n: nat): (s: string)
    ensures |s| >= 1 && AllDigits(s)
    ensures Value(s) == n
    ensures n > 0 ==> s[0] != '0'
    ensures n < 10 <==> |s| == 1
  {
    if n < 10 then
      [DigitChar(n)]
    else
      var s := Digits(n / 10) + [DigitChar(n % 10)];
      assert s[..|s| - 1] == Digits(n / 10);
      s
  }

  /** A custom numeric format with `width` zeros: left-padded with zeros to
      at least that many digits, with a leading minus sign for negatives. */
  function Format(n: int, width: nat): (s: string)
    ensures n >= 0 ==> AllDigits(s) && Value(s) == n
    ensures n >= 0 ==> |s| == Max(width, |Digits(n)|)
  {
    var ds := Digits(Abs(n));
    var padded := Zeros(Max(width - |ds|, 0)) + ds;
    PaddedValue(Max(width - |ds|, 0), ds);
    if n < 0 then "-" + padded else padded
  }

  function Zeros(k: nat): (s: string)
    ensures |s| == k && forall i :: 0 <= i < k ==> s[i] == '0'
  {
    seq(k, _ => '0')
  }

  /** Leading zeros do not change a numeral's value. */
  lemma {:induction false} PaddedValue(k: nat, ds: string)
    requires AllDigits(ds)
    ensures AllDigits(Zeros(k) + ds)
    ensures Value(Zeros(k) + ds) == Value(ds)
    decreases |ds|
  {
    var s := Zeros(k) + ds;
    if |ds| > 0 {
      var zeros := Zeros(k);
      assert s[..|s| - 1] == zeros + ds[..|ds| - 1];
      PaddedValue(k, ds[..|ds| - 1]);
    } else {
      ZerosValue(k);
      assert s == Zeros(k);
    }
  }

  lemma {:induction false} ZerosValue(k: nat)
    ensures AllDigits(Zeros(k))
    ensures Value(Zeros(k)) == 0
    decreases k
  {
    if k > 0 {
      assert Zeros(k)[..k - 1] == Zeros(k - 1);
      ZerosValue(k - 1);
    }
  }

  /** `string.Format("{0:0}:{1:00}", minutes, seconds)`. */
  function FormatTime(t: real): (s: string)
    ensures t >= 0.0 ==> |s| >= 4 && s[|s| - 3] == ':'
    ensures t >= 0.0 ==> AllDigits(s[..|s| - 3]) && AllDigits(s[|s| - 2..])
    ensures t >= 0.0 && TimeFields(t).minutes > 0 ==> s[0] != '0'
  {
    FieldsLabelShape(TimeFields(t), t);
    Label(TimeFields(t).minutes, TimeFields(t).seconds)
  }

  /** The label shape of the fields of a time. */
  lemma FieldsLabelShape(f: Fields, t: real)
    requires f == TimeFields(t)
    ensures var s := Label(f.minutes, f.seconds);
      && (t >= 0.0 ==> |s| >= 4 && s[|s| - 3] == ':')
      && (t >= 0.0 ==> AllDigits(s[..|s| - 3]) && AllDigits(s[|s| - 2..]))
      && (t >= 0.0 && f.minutes > 0 ==> s[0] != '0')
  {
    if t >= 0.0 {
      TimeFieldsOfNonNegative(t);
      LabelShape(f.minutes, f.seconds);
      if f.minutes > 0 {
        LabelLeadingDigit(f.minutes, f.seconds);
      }
    }
  }

  function Label(minutes: int, seconds: int): string
  {
    Format(minutes, 1) + ":" + Format(seconds, 2)
  }

  /** A number below 100 takes exactly two places in a two-zero format. */
  lemma TwoPlaces(n: int)
    requires 0 <= n < 100
    ensures |Format(n, 2)| == 2
  {
    if n >= 10 {
      assert Digits(n) == Digits(n / 10) + [DigitChar(n % 10)];
    }
  }

  /** Splitting "m:ss" at its colon gives back the two parts. */
  lemma SplitAtColon(m: string, sec: string)
    requires |m| >= 1 && |sec| == 2
    ensures var s := m + ":" + sec;
      |s| >= 4 && s[|s| - 3] == ':' && s[..|s| - 3] == m && s[|s| - 2..] == sec
  {
    var s := m + ":" + sec;
    assert s[..|s| - 3] == m;
    assert s[|s| - 2..] == sec;
  }

  /** Non-negative minutes and seconds below 60 print as digits, a colon and
      exactly two digits. */
  lemma LabelShape(minutes: int, seconds: int)
    requires minutes >= 0 && 0 <= seconds < 60
    ensures var s := Label(minutes, seconds);
      && |s| >= 4 && s[|s| - 3] == ':'
      && s[..|s| - 3] == Format(minutes, 1) && s[|s| - 2..] == Format(seconds, 2)
      && AllDigits(s[..|s| - 3]) && AllDigits(s[|s| - 2..])
  {
    var m := Format(minutes, 1);
    var sec := Format(seconds, 2);
    TwoPlaces(seconds);
    SplitAtColon(m, sec);
    assert Label(minutes, seconds) == m + ":" + sec;
  }

  /** The minutes field is unpadded: a positive minute count does not start
      with a zero. */
  lemma LabelLeadingDigit(minutes: int, seconds: int)
    requires minutes > 0
    ensures Label(minutes, seconds)[0] != '0'
  {
    var ds := Digits(minutes);
    assert Format(minutes, 1) == Zeros(0) + ds;
    assert Zeros(0) + ds == ds;
    assert Label(minutes, seconds)[0] == ds[0];
  }

  /** Reads an "m:ss" label back: digits, a colon, and exactly two digits. */
  function ParseTime(s: string): (f: Option<Fields>)
    ensures f.Some? ==> f.value.minutes >= 0 && 0 <= f.value.seconds < 100
  {
    if |s| >= 4 && s[|s| - 3] == ':' && AllDigits(s[..|s| - 3]) && AllDigits(s[|s| - 2..]) then
      var ss := s[|s| - 2..];
      assert ss[..1][..0] == [];
      assert Value(ss[..1]) == (ss[0] - '0') as int;
      assert ss[..|ss| - 1] == ss[..1];
      Some(Fields(Value(s[..|s| - 3]), Value(ss)))
    else
      None
  }

  /** The label of a non-negative time reads back as exactly its fields, so
      the minutes and seconds shown are the time's whole minutes and its
      leftover seconds. */
  lemma FormatTimeRoundTrip(t: real)
    requires t >= 0.0
    ensures ParseTime(FormatTime(t)) == Some(TimeFields(t))
  {
    TimeFieldsOfNonNegative(t);
    var f := TimeFields(t);
    LabelShape(f.minutes, f.seconds);
  }

  /** Two non-negative times share a label exactly when they share their
      fields. */
  lemma FormatTimeInjective(t: real, u: real)
    requires t >= 0.0 && u >= 0.0
    ensures FormatTime(t) == FormatTime(u) <==> TimeFields(t) == TimeFields(u)
  {
    FormatTimeRoundTrip(t);
    FormatTimeRoundTrip(u);
  }

  /** The slider's seek handler: a position at or past the clip's end
      rewinds to the start. */
  function SetPlaybackTime(time: real, length: real): (r: real)
    ensures length > 0.0 && time >= 0.0 ==> 0.0 <= r < length
    ensures time < length ==> r == time
    ensures time >= length ==> r == 0.0
  {
    if time >= length then 0.0 else time
  }

  /** For a clip with a positive length, seeking to any non-negative
      position lands inside the clip, and seeking again to where it landed
      changes nothing. */
  lemma SeekLandsInClip(time: real, length: real)
    requires length > 0.0 && time >= 0.0
    ensures 0.0 <= SetPlaybackTime(time, length) < length
    ensures SetPlaybackTime(SetPlaybackTime(time, length), length) == SetPlaybackTime(time, length)
  {
  }

  /** The audio source as far as the controls see it. `hasSource` and `clip`
      are the modal's references; `sourceClip` is the clip loaded into the
      source. */
  datatype Player = Player(hasSource: bool, clip: Option<nat>, sourceClip: Option<nat>,
                           isPlaying: bool, time: real, slider: real)

  datatype Press = NoEffect | Paused | Started | Resumed

  /** The play/pause button. Pausing keeps the time; starting from time 0
      resets the slider; otherwise playback resumes where it stopped. */
  function PlayPause(p: Player): (r: (Player, Press))
    ensures !p.hasSource || p.clip.None? <==> r.1 == NoEffect
    ensures r.1 == NoEffect ==> r.0 == p
    ensures r.1 != NoEffect ==>
      r.0 == p.(sourceClip := p.clip, isPlaying := !p.isPlaying, slider := r.0.slider)
    ensures r.1 == Paused <==> r.1 != NoEffect && p.isPlaying
    ensures r.1 == Started <==> r.1 != NoEffect && !p.isPlaying && p.time == 0.0
    ensures r.1 == Started ==> r.0.slider == 0.0
    ensures r.1 != Started ==> r.0.slider == p.slider
  {
    if p.hasSource && p.clip.Some? then
      var loaded := p.(sourceClip := p.clip);
      if loaded.isPlaying then (loaded.(isPlaying := false), Paused)
      else if loaded.time == 0.0 then (loaded.(slider := 0.0, isPlaying := true), Started)
      else (loaded.(isPlaying := true), Resumed)
    else
      (p, NoEffect)
  }

  /** Two presses in a row return to the original playing state and
      playback position; pausing and then pressing again resumes, or
      restarts when the pause happened at time 0. */
  lemma PressTwice(p: Player)
    requires p.hasSource && p.clip.Some?
    ensures var q := PlayPause(PlayPause(p).0).0;
      q.isPlaying == p.isPlaying && q.time == p.time && q.sourceClip == p.clip
    ensures p.isPlaying ==> PlayPause(PlayPause(p).0).1 == (if p.time == 0.0 then Started else Resumed)
  {
  }

  /** The seek handler as the slider calls it. It reads the length of the
      clip loaded into the source, not the modal's clip: before a press has
      loaded one there is none, and the read throws (a
      `NullReferenceException`); after the modal switches annotations it is
      still the previous clip. `clipLength` gives every clip's length. */
  function Seek(p: Player, clipLength: nat -> real, time: real): (r: Option<Player>)
    ensures r.None? <==> p.sourceClip.None?
    ensures r.Some? ==> r.value == p.(time := r.value.time)
    ensures r.Some? && time < clipLength(p.sourceClip.value) ==> r.value.time == time
    ensures r.Some? && time >= clipLength(p.sourceClip.value) ==> r.value.time == 0.0
    ensures r.Some? && clipLength(p.sourceClip.value) > 0.0 && time >= 0.0 ==>
      0.0 <= r.value.time < clipLength(p.sourceClip.value)
  {
    match p.sourceClip
    case None => None
    case Some(loaded) => Some(p.(time := SetPlaybackTime(time, clipLength(loaded))))
  }

  /** Once a press has had an effect, seeking no longer throws, and it is
      measured against the modal's clip. */
  lemma PressLoadsClipForSeek(p: Player, clipLength: nat -> real, time: real)
    requires p.hasSource && p.clip.Some?
    ensures var r := Seek(PlayPause(p).0, clipLength, time);
      && r.Some?
      && (time < clipLength(p.clip.value) ==> r.value.time == time)
      && (time >= clipLength(p.clip.value) ==> r.value.time == 0.0)
  {
  }

  /** After the modal switches to a longer clip without a press, the slider
      (whose maximum is the new clip's length) can reach positions past the
      old clip's end, and seeking there rewinds to the start. */
  lemma StaleClipRewinds(p: Player, clipLength: nat -> real, time: real)
    requires p.sourceClip.Some? && p.clip.Some?
    requires clipLength(p.sourceClip.value) <= time < clipLength(p.clip.value)
    ensures Seek(p, clipLength, time) == Some(p.(time := 0.0))
  {
  }

  datatype Sprite = PlayGraphic | PauseGraphic

  /** The widgets `Update` writes. `listeners` counts how many times the
      seek handler is attached to the slider's change event. */
  datatype Controls = Controls(
    sliderValue: real,
    sliderMax: real,
    sliderInteractable: bool,
    listeners: nat,
    currentText: string,
    totalText: string,
    buttonInteractable: bool,
    sprite: Sprite)

  const DefaultTimeText: string := "#:##"

  /** The per-frame update, for the modal's clip (None when the annotation
      has no audio) of the given length and the source's state. The no-clip
      branch resets the widgets but leaves the handlers attached; with a
      clip, locking the slider removes every handler and unlocking it
      attaches one more. */
  function Update(c: Controls, clip: Option<real>, isPlaying: bool, time: real): (r: Controls)
    ensures clip.None? ==>
      && r.sliderValue == 0.0 && !r.sliderInteractable
      && r.currentText == DefaultTimeText && r.totalText == DefaultTimeText
      && !r.buttonInteractable && r.sprite == PlayGraphic
      && r.listeners == c.listeners && r.sliderMax == c.sliderMax
    ensures clip.Some? ==>
      && r.sliderMax == clip.value && r.buttonInteractable
      && r.currentText == FormatTime(time) && r.totalText == FormatTime(clip.value)
    ensures clip.Some? && isPlaying ==> r.sliderValue == time && !r.sliderInteractable
    ensures clip.Some? && isPlaying && c.sliderInteractable ==> r.listeners == 0 && r.sprite == PauseGraphic
    ensures clip.Some? && !isPlaying ==> r.sliderInteractable && r.sprite == PlayGraphic
    ensures clip.Some? && !isPlaying && !c.sliderInteractable ==>
      r.listeners == c.listeners + 1 && r.sliderValue == time
    ensures clip.Some? && isPlaying && !c.sliderInteractable ==>
      r.listeners == c.listeners && r.sprite == c.sprite
    ensures clip.Some? && !isPlaying && c.sliderInteractable ==>
      r.listeners == c.listeners && r.sliderValue == c.sliderValue
  {
    match clip
    case None =>
      c.(sliderValue := 0.0, sliderInteractable := false,
         currentText := DefaultTimeText, totalText := DefaultTimeText,
         buttonInteractable := false, sprite := PlayGraphic)
    case Some(length) =>
      var c1 := c.(sliderMax := length, currentText := FormatTime(time),
                   totalText := FormatTime(length), buttonInteractable := true);
      if isPlaying then
        var c2 := if c1.sliderInteractable
          then c1.(sliderInteractable := false, sprite := PauseGraphic, listeners := 0)
          else c1;
        c2.(sliderValue := time)
      else
        var c2 := c1.(sprite := PlayGraphic);
        if !c2.sliderInteractable
        then c2.(sliderValue := time, sliderInteractable := true, listeners := c2.listeners + 1)
        else c2
  }

  /** One seek handler is attached exactly while the slider is interactable. */
  predicate Wired(c: Controls)
  {
    c.listeners == if c.sliderInteractable then 1 else 0
  }

  /** While the annotation has a clip, every update keeps the controls
      wired, and the user can seek exactly while playback is stopped. */
  lemma UpdateWithClipKeepsWired(c: Controls, length: real, isPlaying: bool, time: real)
    requires Wired(c)
    ensures Wired(Update(c, Some(length), isPlaying, time))
    ensures Update(c, Some(length), isPlaying, time).sliderInteractable <==> !isPlaying
  {
  }

  /** Switching to an annotation without audio while stopped, and back to
      one with audio, attaches the seek handler a second time, so a drag of
      the slider seeks twice (to the same place, by SeekLandsInClip). */
  lemma NoClipFrameDoublesHandler(c: Controls, length: real, time: real)
    requires Wired(c) && c.sliderInteractable
    ensures var r := Update(Update(c, None, false, time), Some(length), false, time);
      r.sliderInteractable && r.listeners == 2 && !Wired(r)
  {
  }

  /** The pause graphic is shown only on the frame where playback is first
      seen: once the slider is locked, a playing update leaves the sprite as
      it was. */
  lemma PauseGraphicOnlyOnLockingFrame(c: Controls, length: real, time: real)
    requires !c.sliderInteractable
    ensures Update(c, Some(length), true, time).sprite == c.sprite
  {
  }
}

=== FILE: base.dfy ===
/** Shared vocabulary: optional values, integer pixel points, and the C#
    integer operations (truncating division, 32-bit wrap-around) that the
    rest of the model needs to state explicitly. */
module Base {

  /** The conventional Some/None datatype, standing in for C# nullable
      structs (`MatchedTarget?`) and missing dictionary entries. */
  datatype Option<+T> = None | Some(value: T)

  /** A `Vector2Int`: an integer pixel coordinate or displacement. */
  datatype Point = Point(x: int, y: int)
  {
    function Plus(o: Point): Point { Point(x + o.x, y + o.y) }
    function Minus(o: Point): Point { Point(x - o.x, y - o.y) }
  }

  const Origin: Point := Point(0, 0)

  function Min(a: int, b: int): int { if a <= b then a else b }
  function Max(a: int, b: int): int { if a >= b then a else b }

  function Abs(a: int): nat { if a < 0 then -a else a }

  /** The greatest integer not above x: `Mathf.Floor`, and `Mathf.FloorToInt`
      without its conversion to a 32-bit `int`. */
  function Floor(x: real): int { x.Floor }

  /** C# integer division on `int` by a positive divisor: the quotient is
      truncated toward zero, unlike Dafny's Euclidean `/`, so the remainder
      takes the sign of the dividend. */
  function TruncDiv(a: int, b: int): (q: int)
    requires b > 0
    ensures a >= 0 ==> 0 <= a - q * b < b
    ensures a < 0 ==> -b < a - q * b <= 0
  {
    if a >= 0 then a / b else -((-a) / b)
  }

  /** `Vector2Int / int` divides each component with C# truncation. */
  function PointDiv(p: Point, d: int): Point
    requires d > 0
  {
    Point(TruncDiv(p.x, d), TruncDiv(p.y, d))
  }

  /** Two to the n, the value of `1 << n` for small n and of `Mathf.Pow(2, n)`. */
  function Pow2(n: nat): (r: nat)
    ensures r >= 1
  {
    if n == 0 then 1 else 2 * Pow2(n - 1)
  }

  lemma {:induction false} Pow2Add(a: nat, b: nat)
    ensures Pow2(a + b) == Pow2(a) * Pow2(b)
  {
    if a > 0 {
      Pow2Add(a - 1, b);
    }
  }

  lemma {:induction false} Pow2Monotone(a: nat, b: nat)
    requires a <= b
    ensures Pow2(a) <= Pow2(b)
  {
    if a < b {
      Pow2Monotone(a, b - 1);
    }
  }

  const Int32Modulus: int := 0x1_0000_0000
  const Int32Min: int := -0x8000_0000
  const Int32Max: int := 0x7FFF_FFFF

  predicate IsInt32(a: int) { Int32Min <= a <= Int32Max }

  /** The value a C# `int` holds after an unchecked operation whose exact
      result is `a`: two's-complement wrap-around to 32 bits. */
  function Wrap32(a: int): (r: int)
    ensures IsInt32(r)
    ensures (r - a) % Int32Modulus == 0
    ensures IsInt32(a) ==> r == a
  {
    var m := (a - Int32Min) % Int32Modulus;
    m + Int32Min
  }

  /** Multiplying by a non-negative factor keeps the order. */
  lemma MulMonotone(a: int, b: int, c: int)
    requires a <= b && c >= 0
    ensures a * c <= b * c
  {
  }

  /** A non-negative dividend gives a quotient between 0 and itself. */
  lemma {:induction false} DivBounds(a: int, d: int)
    requires a >= 0 && d > 0
    ensures 0 <= a / d <= a
  {
    var q := a / d;
    var r := a % d;
    assert a == q * d + r && 0 <= r < d;
    if q < 0 {
      MulMonotone(q, -1, d);
      assert false;
    }
    if q > a {
      MulMonotone(a + 1, q, d);
      MulMonotone(1, d, a + 1);
      assert false;
    }
  }

  /** Euclidean remainders are unique, for any integer dividend. */
  lemma {:induction false} ModUnique(a: int, d: int, q: int, r: int)
    requires d > 0 && a == q * d + r && 0 <= r < d
    ensures a % d == r
  {
    var q0 := a / d;
    var r0 := a % d;
    assert a == q0 * d + r0;
    if q0 < q {
      MulMonotone(q0 + 1, q, d);
      assert false;
    } else if q < q0 {
      MulMonotone(q + 1, q0, d);
      assert false;
    }
  }

  /** Wrapping is insensitive to earlier wrapping: an unchecked sum of a
      wrapped value is the wrapped exact sum. */
  lemma {:induction false} Wrap32Add(a: int, b: int)
    ensures Wrap32(Wrap32(a) + b) == Wrap32(a + b)
  {
    var k := (a - Int32Min) / Int32Modulus;
    var m := (a - Int32Min) % Int32Modulus;
    assert a - Int32Min == k * Int32Modulus + m;
    assert Wrap32(a) == a - k * Int32Modulus;
    var z := a + b - Int32Min;
    var q := z / Int32Modulus;
    var r := z % Int32Modulus;
    assert z == q * Int32Modulus + r;
    assert Wrap32(a) + b - Int32Min == (q - k) * Int32Modulus + r;
    ModUnique(Wrap32(a) + b - Int32Min, Int32Modulus, q - k, r);
  }

  /** Element-wise sum of a sequence of points (the `origin +=` loops). */
  function SumPoints(ps: seq<Point>): Point
  {
    if |ps| == 0 then Origin else SumPoints(ps[..|ps| - 1]).Plus(ps[|ps| - 1])
  }

  /** A sequence without repeated elements. */
  predicate NoDup<T(==)>(s: seq<T>)
  {
    forall i, j :: 0 <= i < j < |s| ==> s[i] != s[j]
  }

  /** Concatenation of a sequence of blocks, in order. */
  function Flatten<T>(ss: seq<seq<T>>): seq<T>
  {
    if |ss| == 0 then [] else ss[0] + Flatten(ss[1..])
  }

  lemma MulStep(b: nat, L: int)
    requires b > 0
    ensures b * L == L + (b - 1) * L
  {
  }

  /** Blocks of a common length L laid end to end. */
  lemma {:induction false} FlattenLength<T>(ss: seq<seq<T>>, L: nat)
    requires forall b :: 0 <= b < |ss| ==> |ss[b]| == L
    ensures |Flatten(ss)| == |ss| * L
  {
    if |ss| > 0 {
      FlattenLength(ss[1..], L);
      MulStep(|ss|, L);
    }
  }

  /** Block b, offset o of uniformly sized blocks sits at b * L + o. */
  lemma {:induction false} FlattenIndex<T>(ss: seq<seq<T>>, L: nat, b: nat, o: nat)
    requires forall c :: 0 <= c < |ss| ==> |ss[c]| == L
    requires b < |ss| && o < L
    ensures b * L + o < |Flatten(ss)|
    ensures Flatten(ss)[b * L + o] == ss[b][o]
  {
    FlattenLength(ss, L);
    if b > 0 {
      FlattenLength(ss[1..], L);
      FlattenIndex(ss[1..], L, b - 1, o);
      MulStep(b, L);
      assert ss[1..][b - 1] == ss[b];
    }
  }

  /** Quotient and remainder are unique: a == q * d + r with 0 <= r < d
      forces q == a / d. */
  lemma {:induction false} DivUnique(a: nat, d: nat, q: nat, r: nat)
    requires d > 0 && a == q * d + r && r < d
    ensures a / d == q
  {
    var q0 := a / d;
    var r0 := a % d;
    assert a == q0 * d + r0;
    if q0 < q {
      MulMonotone(q0 + 1, q, d);
      assert false;
    } else if q < q0 {
      MulMonotone(q + 1, q0, d);
      assert false;
    }
  }

  /** Dividing by b and then by c is dividing by b * c. */
  lemma {:induction false} DivDiv(a: nat, b: nat, c: nat)
    requires b > 0 && c > 0
    ensures a / b / c == a / (b * c)
  {
    var q := a / b;
    var r := a % b;
    var q2 := q / c;
    var r2 := q % c;
    var bc := b * c;
    assert a == q * b + r;
    assert q == q2 * c + r2;
    assert a == q2 * bc + (r2 * b + r) by {
      DivDivSum(q, b, r, q2, c, r2);
    }
    DivDivRemainder(r2, c, b, r);
    DivUnique(a, bc, q2, r2 * b + r);
  }

  lemma DivDivRemainder(r2: nat, c: nat, b: nat, r: nat)
    requires r2 < c && r < b
    ensures r2 * b + r < b * c
  {
    MulMonotone(r2 + 1, c, b);
    assert (r2 + 1) * b == r2 * b + b;
  }

  lemma DivDivSum(q: int, b: int, r: int, q2: int, c: int, r2: int)
    requires q == q2 * c + r2
    ensures q * b + r == q2 * (b * c) + (r2 * b + r)
  {
    assert q * b == q2 * c * b + r2 * b;
  }
}

=== FILE: blur_kernel.dfy ===
/** The shape of the one-dimensional Gaussian blur kernel built by the
    marker enrollment prototype. The Gaussian values themselves are inputs:
    `weights[t]` is the (positive) value at distance t from the centre. */
module BlurKernel {
  import opened Base

  function Sum(s: seq<real>): real
  {
    if |s| == 0 then 0.0 else Sum(s[..|s| - 1]) + s[|s| - 1]
  }

  /** Overwriting one entry changes the sum by the difference. */
  lemma {:induction false} SumUpdate(s: seq<real>, i: nat, v: real)
    requires i < |s|
    ensures Sum(s[i := v]) == Sum(s) - s[i] + v
  {
    var n := |s| - 1;
    if i < n {
      assert s[i := v][..n] == s[..n][i := v];
      SumUpdate(s[..n], i, v);
    } else {
      assert s[i := v][..n] == s[..n];
    }
  }

  lemma {:induction false} SumOfZeros(n: nat)
    ensures Sum(seq(n, p => 0.0)) == 0.0
  {
    if n > 0 {
      assert seq(n, p => 0.0)[..n - 1] == seq(n - 1, p => 0.0);
      SumOfZeros(n - 1);
    }
  }

  function Divided(s: seq<real>, c: real): (d: seq<real>)
    requires c != 0.0
    ensures |d| == |s|
    ensures forall p :: 0 <= p < |s| ==> d[p] == s[p] / c
  {
    seq(|s|, p requires 0 <= p < |s| => s[p] / c)
  }

  lemma {:induction false} SumDivided(s: seq<real>, c: real)
    requires c != 0.0
    ensures Sum(Divided(s, c)) == Sum(s) / c
  {
    if |s| > 0 {
      var n := |s| - 1;
      assert Divided(s, c)[..n] == Divided(s[..n], c);
      SumDivided(s[..n], c);
    }
  }

  /** The total the source accumulates: the centre weight once and every
      other weight twice, once for each side. */
  function WeightTotal(weights: seq<real>): real
  {
    if |weights| == 0 then 0.0 else weights[0] + 2.0 * Sum(weights[1..])
  }

  /** The running total after the first t weights were placed. */
  function PlacedTotal(weights: seq<real>, t: nat): real
    requires t <= |weights|
  {
    WeightTotal(weights[..t])
  }

  lemma PlacedTotalStep(weights: seq<real>, t: nat)
    requires t < |weights|
    ensures PlacedTotal(weights, t + 1) == PlacedTotal(weights, t) + (if t == 0 then weights[0] else 2.0 * weights[t])
  {
    if t > 0 {
      assert weights[..t + 1][1..][..t - 1] == weights[..t][1..];
    }
  }

  /** The kernel once the weights at distances below t are in place: every
      entry closer to the centre than t holds its weight, the rest are 0. */
  function Placed(weights: seq<real>, radius: nat, t: nat): (k: seq<real>)
    requires |weights| == radius && t <= radius
    ensures |k| == 2 * radius + 1
    ensures forall p :: 0 <= p < |k| ==> k[p] == if Abs(p - radius) < t then weights[Abs(p - radius)] else 0.0
  {
    seq(2 * radius + 1, p requires 0 <= p < 2 * radius + 1 =>
      if Abs(p - radius) < t then weights[Abs(p - radius)] else 0.0)
  }

  /** One round of the first loop writes weight t on both sides. */
  lemma PlaceStep(weights: seq<real>, radius: nat, t: nat)
    requires |weights| == radius && t < radius
    ensures Placed(weights, radius, t)[radius + t := weights[t]][radius - t := weights[t]]
         == Placed(weights, radius, t + 1)
  {
    var before := Placed(weights, radius, t);
    var after := Placed(weights, radius, t + 1);
    var written := before[radius + t := weights[t]][radius - t := weights[t]];
    forall p | 0 <= p < 2 * radius + 1 ensures written[p] == after[p] {
      if p == radius + t || p == radius - t {
        assert Abs(p - radius) == t;
      } else {
        assert written[p] == before[p];
      }
    }
  }

  /** The first loop of `OneDimensinalKernel`: weight t is written at both
      distances t from the centre for t < radius, so the two end entries
      keep their initial zero, and the total is accumulated alongside. */
  method PlaceWeights(radius: nat, weights: seq<real>) returns (k: seq<real>, sum: real)
    requires |weights| == radius
    requires forall t :: 0 <= t < radius ==> weights[t] > 0.0
    ensures |k| == 2 * radius + 1
    ensures forall s :: 0 <= s < radius ==> k[radius + s] == weights[s] && k[radius - s] == weights[s]
    ensures k[0] == 0.0 && k[2 * radius] == 0.0
    ensures sum == Sum(k) == WeightTotal(weights)
    ensures radius == 0 ==> sum == 0.0
    ensures radius > 0 ==> sum > 0.0
  {
    k := seq(2 * radius + 1, p => 0.0);
    sum := 0.0;
    SumOfZeros(2 * radius + 1);
    assert k == Placed(weights, radius, 0) by {
      forall p | 0 <= p < 2 * radius + 1 ensures k[p] == Placed(weights, radius, 0)[p] { }
    }
    var t := 0;
    while t < radius
      invariant 0 <= t <= radius
      invariant k == Placed(weights, radius, t)
      invariant sum == Sum(k)
      invariant sum == PlacedTotal(weights, t)
      invariant t > 0 ==> sum > 0.0
    {
      PlaceOne(weights, radius, t, k);
      k := k[radius + t := weights[t]][radius - t := weights[t]];
      sum := sum + (if t == 0 then weights[t] else 2.0 * weights[t]);
      t := t + 1;
    }
    PlacedAll(weights, radius, k);
  }

  /** One round of the first loop: writing weight t at both distances t
      adds it once (t == 0) or twice to the kernel's sum. */
  lemma PlaceOne(weights: seq<real>, radius: nat, t: nat, k: seq<real>)
    requires |weights| == radius && t < radius
    requires k == Placed(weights, radius, t)
    ensures k[radius + t := weights[t]][radius - t := weights[t]] == Placed(weights, radius, t + 1)
    ensures Sum(k[radius + t := weights[t]][radius - t := weights[t]])
         == Sum(k) + (if t == 0 then weights[t] else 2.0 * weights[t])
    ensures PlacedTotal(weights, t + 1) == PlacedTotal(weights, t) + (if t == 0 then weights[t] else 2.0 * weights[t])
  {
    assert k[radius + t] == 0.0 && k[radius - t] == 0.0 by {
      assert Abs(radius + t - radius) == t && Abs(radius - t - radius) == t;
    }
    var w := weights[t];
    var k1 := k[radius + t := w];
    SumUpdate(k, radius + t, w);
    assert k1[radius - t] == (if t == 0 then w else 0.0);
    SumUpdate(k1, radius - t, w);
    PlaceStep(weights, radius, t);
    PlacedTotalStep(weights, t);
  }

  /** Once every weight is placed, the kernel holds weight s at both
      distances s, and its total is the weights' total. */
  lemma PlacedAll(weights: seq<real>, radius: nat, k: seq<real>)
    requires |weights| == radius && k == Placed(weights, radius, radius)
    ensures forall s :: 0 <= s < radius ==> k[radius + s] == weights[s] && k[radius - s] == weights[s]
    ensures k[0] == 0.0 && k[2 * radius] == 0.0
    ensures PlacedTotal(weights, radius) == WeightTotal(weights)
  {
    assert weights[..radius] == weights;
    forall s | 0 <= s < radius ensures k[radius + s] == weights[s] && k[radius - s] == weights[s] {
      assert Abs(radius + s - radius) == s && Abs(radius - s - radius) == s;
    }
    assert Abs(0 - radius) == radius && Abs(2 * radius - radius) == radius;
  }

  /** `OneDimensinalKernel(radius, sigma)`: after placing the weights every
      entry is divided by the accumulated total. With radius 0 that total is
      0 and the single entry becomes 0/0, a NaN kernel, which is reported as
      `None`. */
  method OneDimensionalKernel(radius: nat, weights: seq<real>) returns (kernel: Option<seq<real>>)
    requires |weights| == radius
    requires forall t :: 0 <= t < radius ==> weights[t] > 0.0
    ensures kernel.None? <==> radius == 0
    ensures kernel.Some? ==>
      && |kernel.value| == 2 * radius + 1
      && kernel.value[0] == 0.0 && kernel.value[2 * radius] == 0.0
      && WeightTotal(weights) > 0.0
      && (forall t :: 0 <= t < radius ==>
            kernel.value[radius + t] == weights[t] / WeightTotal(weights) &&
            kernel.value[radius - t] == weights[t] / WeightTotal(weights))
      && Sum(kernel.value) == 1.0
  {
    var k, sum := PlaceWeights(radius, weights);
    if sum == 0.0 {
      return None;
    }
    var normalized := Divided(k, sum);
    SumDivided(k, sum);
    assert Sum(normalized) == sum / sum == 1.0;
    kernel := Some(normalized);
  }
}

=== FILE: box_filter.dfy ===
/** The box-filter test's kernel-size counter, a C# `int` changed by the
    increment and decrement buttons. */
module BoxFilter {
  import opened Base

  const InitialKernel: int := 5

  /** `boxFilterKernel += n`, unchecked: wraps on overflow. */
  function Increment(k: int, n: int): (r: int)
    ensures IsInt32(r)
    ensures (r - (k + n)) % Int32Modulus == 0
    ensures IsInt32(k + n) ==> r == k + n
  {
    Wrap32(k + n)
  }

  /** `boxFilterKernel = Mathf.Max(boxFilterKernel - n, 0)`. */
  function Decrement(k: int, n: int): (r: int)
    ensures IsInt32(r) && r >= 0
    ensures r == 0 || (r - (k - n)) % Int32Modulus == 0
    ensures IsInt32(k - n) && k >= n ==> r == k - n
    ensures IsInt32(k - n) && n > k ==> r == 0
  {
    Max(Wrap32(k - n), 0)
  }

  /** Decrementing by n undoes incrementing by n for every non-negative
      kernel size, even when the increment overflowed. */
  lemma DecrementUndoesIncrement(k: int, n: int)
    requires IsInt32(k) && k >= 0
    ensures Decrement(Increment(k, n), n) == k
  {
    Wrap32Add(k + n, -n);
  }

  /** Only the decrement clamps: an increment past the largest `int` leaves
      a negative kernel size. */
  lemma IncrementCanGoNegative()
    ensures Increment(Int32Max, 1) == Int32Min
    ensures Decrement(Int32Min, 1) == Int32Max
  {
  }
}

=== FILE: brief.dfy ===
/** The binary-descriptor test table and descriptor buffer sizing.

    The descriptor shader is not modelled. The table of sampling offsets is
    drawn once from `Random.Range`; here the random source is a parameter:
    a sequence of raw draws, each mapped onto the requested half-open range. */
module Brief {
  import opened Base

  const NumTests: nat := 128
  const PatchSize: nat := 31
  const BitsPerWord: nat := 32

  /** One sampling test: compare the pixel at (x1, y1) with the pixel at
      (x2, y2), both relative to the keypoint. */
  datatype BriefTest = BriefTest(x1: int, y1: int, x2: int, y2: int)

  /** `Random.Range(lo, hi)` on integers: a value in [lo, hi), the upper
      bound exclusive. `draw` is the random source. */
  function RandomRange(lo: int, hi: int, draw: nat): (v: int)
    requires lo < hi
    ensures lo <= v < hi
  {
    lo + draw % (hi - lo)
  }

  /** The bounds the source passes: `-patchSize / 2` (C# division, so
      truncated toward zero) and `patchSize / 2 + 1`. */
  function LowerBound(patchSize: nat): int { TruncDiv(-(patchSize as int), 2) }
  function UpperBoundExclusive(patchSize: nat): int { patchSize / 2 + 1 }

  /** Every component lies within half a patch of the keypoint. */
  predicate InPatch(t: BriefTest, patchSize: nat)
  {
    var h := patchSize / 2;
    && -h <= t.x1 <= h && -h <= t.y1 <= h
    && -h <= t.x2 <= h && -h <= t.y2 <= h
  }

  /** The truncating lower bound is exactly minus the half patch; Euclidean
      division would give -16 for a patch of 31. */
  lemma LowerBoundIsMinusHalf(patchSize: nat)
    ensures LowerBound(patchSize) == -(patchSize / 2)
    ensures LowerBound(patchSize) < UpperBoundExclusive(patchSize)
  {
  }

  function DrawOffset(patchSize: nat, draw: nat): (v: int)
    ensures -(patchSize / 2) <= v <= patchSize / 2
  {
    LowerBoundIsMinusHalf(patchSize);
    RandomRange(LowerBound(patchSize), UpperBoundExclusive(patchSize), draw)
  }

  /** The test table: test i uses draws 4i .. 4i+3 for x1, y1, x2, y2. */
  function GenerateBriefTests(numTests: nat, patchSize: nat, draws: seq<nat>): (tests: seq<BriefTest>)
    requires |draws| == 4 * numTests
    ensures |tests| == numTests
    ensures forall i :: 0 <= i < |tests| ==> InPatch(tests[i], patchSize)
  {
    seq(numTests, i requires 0 <= i < numTests =>
      BriefTest(DrawOffset(patchSize, draws[4 * i]), DrawOffset(patchSize, draws[4 * i + 1]),
                DrawOffset(patchSize, draws[4 * i + 2]), DrawOffset(patchSize, draws[4 * i + 3])))
  }

  /** Drawing `v + patchSize / 2` yields `v`: each in-patch offset is hit. */
  lemma DrawOffsetHits(patchSize: nat, v: int)
    requires -(patchSize / 2) <= v <= patchSize / 2
    ensures DrawOffset(patchSize, v + patchSize / 2) == v
  {
    LowerBoundIsMinusHalf(patchSize);
    var h := patchSize / 2;
    assert UpperBoundExclusive(patchSize) - LowerBound(patchSize) == 2 * h + 1;
    assert (v + h) % (2 * h + 1) == v + h;
  }

  /** The bound is tight: every test within the patch is produced by some
      choice of draws, so the table ranges over exactly the in-patch tests. */
  lemma EveryInPatchTestIsDrawable(patchSize: nat, t: BriefTest)
    requires InPatch(t, patchSize)
    ensures
      var h := patchSize / 2;
      GenerateBriefTests(1, patchSize, [t.x1 + h, t.y1 + h, t.x2 + h, t.y2 + h]) == [t]
  {
    var h := patchSize / 2;
    DrawOffsetHits(patchSize, t.x1);
    DrawOffsetHits(patchSize, t.y1);
    DrawOffsetHits(patchSize, t.x2);
    DrawOffsetHits(patchSize, t.y2);
    var tests := GenerateBriefTests(1, patchSize, [t.x1 + h, t.y1 + h, t.x2 + h, t.y2 + h]);
    assert tests[0] == t;
  }

  /** Descriptor buffer length in 32-bit words, as the buffer is allocated
      (`numKeypoints * numTests / 32`) and as the host array is allocated
      (`numTests / 32 * numKeypoints`). */
  function BufferWords(numKeypoints: nat, numTests: nat): nat
  {
    numKeypoints * numTests / BitsPerWord
  }

  function ArrayWords(numKeypoints: nat, numTests: nat): nat
  {
    numTests / BitsPerWord * numKeypoints
  }

  /** With 128 tests both allocations hold four words per keypoint, exactly
      one bit per test. */
  lemma {:induction false} DescriptorSizing(numKeypoints: nat)
    ensures BufferWords(numKeypoints, NumTests) == 4 * numKeypoints
    ensures ArrayWords(numKeypoints, NumTests) == 4 * numKeypoints
    ensures 4 * BitsPerWord == NumTests
  {
    assert numKeypoints * 128 == (4 * numKeypoints) * 32;
  }
}

=== FILE: clock.dfy ===
/** The decorative clock: the hand angles for the elapsed time, optionally
    snapped to a step with a damped fractional part. Arithmetic is over
    mathematical reals; the pendulum's sine and the transforms are not
    modelled. */
module Clock {
  import opened Base

  /** x to the n-th power, `Mathf.Pow` at a non-negative integral exponent. */
  function Pow(x: real, n: nat): real
  {
    if n == 0 then 1.0 else x * Pow(x, n - 1)
  }

  lemma {:induction false} PowBelowOne(x: real, n: nat)
    requires 0.0 <= x < 1.0
    ensures 0.0 <= Pow(x, n) <= 1.0
    ensures n >= 1 ==> Pow(x, n) < 1.0
  {
    if n > 0 {
      PowBelowOne(x, n - 1);
      assert x * Pow(x, n - 1) <= Pow(x, n - 1);
    }
  }

  lemma {:induction false} PowZero(n: nat)
    requires n >= 1
    ensures Pow(0.0, n) == 0.0
  {
  }

  /** The clock's settings. */
  datatype Settings = Settings(startHour: real, realMinutesPerHour: real, shouldRound: bool,
                               roundToNearestDegree: int, roundDampingPower: nat)

  /** The three hand angles, in degrees. */
  datatype Hands = Hands(hour: real, minute: real, second: real)

  /** Clock hours shown after `elapsed` real seconds. */
  function Hours(s: Settings, elapsed: real): real
    requires s.realMinutesPerHour != 0.0
  {
    elapsed / (s.realMinutesPerHour * 60.0) + s.startHour
  }

  /** The unrounded angles: 360 degrees per 12 hours, per 60 minutes and per
      60 seconds. */
  function RawHands(s: Settings, elapsed: real): (h: Hands)
    requires s.realMinutesPerHour != 0.0
  {
    var hours := Hours(s, elapsed);
    var minutes := hours * 60.0;
    var seconds := minutes * 60.0;
    Hands(hours / 12.0 * 360.0, minutes / 60.0 * 360.0, seconds / 60.0 * 360.0)
  }

  /** The minute hand turns 12 times as fast as the hour hand and the second
      hand 60 times as fast as the minute hand; at elapsed time 0 the hour
      hand stands at the start hour. */
  lemma HandRatios(s: Settings, elapsed: real)
    requires s.realMinutesPerHour != 0.0
    ensures RawHands(s, elapsed).minute == 12.0 * RawHands(s, elapsed).hour
    ensures RawHands(s, elapsed).second == 60.0 * RawHands(s, elapsed).minute
    ensures RawHands(s, 0.0).hour == s.startHour * 30.0
  {
  }

  /** The snapping formula: the whole number of steps, plus the fractional
      step raised to the damping power (in degrees, not in steps). */
  function Snap(a: real, step: int, power: nat): (r: real)
    requires step > 0
    ensures power >= 1 ==>
      var base := Floor(a / step as real) as real * step as real;
      base <= r < base + 1.0
  {
    var q := a / step as real;
    var f := q - Floor(q) as real;
    PowBelowOne(f, power);
    Floor(q) as real * step as real + Pow(f, power)
  }

  /** An angle that is already a whole number of steps is left alone. */
  lemma SnapKeepsMultiples(k: int, step: int, power: nat)
    requires step > 0 && power >= 1
    ensures Snap(k as real * step as real, step, power) == k as real * step as real
  {
    assert k as real * step as real / step as real == k as real;
    PowZero(power);
  }

  /** With a damping power of 0 the fractional term is always 1. */
  lemma SnapPowerZero(a: real, step: int)
    requires step > 0
    ensures Snap(a, step, 0) == Floor(a / step as real) as real * step as real + 1.0
  {
  }

  /** One `Update`: the raw angles, snapped when rounding is on. */
  function HandAngles(s: Settings, elapsed: real): (h: Hands)
    requires s.realMinutesPerHour != 0.0
    requires s.shouldRound ==> s.roundToNearestDegree > 0
    ensures !s.shouldRound ==> h == RawHands(s, elapsed)
    ensures s.shouldRound && s.roundDampingPower >= 1 ==>
      && RawHands(s, elapsed).hour - s.roundToNearestDegree as real < h.hour < RawHands(s, elapsed).hour + 1.0
      && RawHands(s, elapsed).minute - s.roundToNearestDegree as real < h.minute < RawHands(s, elapsed).minute + 1.0
      && RawHands(s, elapsed).second - s.roundToNearestDegree as real < h.second < RawHands(s, elapsed).second + 1.0
    ensures s.shouldRound && s.roundDampingPower == 0 ==>
      && RawHands(s, elapsed).hour - s.roundToNearestDegree as real < h.hour <= RawHands(s, elapsed).hour + 1.0
      && RawHands(s, elapsed).minute - s.roundToNearestDegree as real < h.minute <= RawHands(s, elapsed).minute + 1.0
      && RawHands(s, elapsed).second - s.roundToNearestDegree as real < h.second <= RawHands(s, elapsed).second + 1.0
  {
    var raw := RawHands(s, elapsed);
    if s.shouldRound then
      var d := s.roundToNearestDegree;
      SnapNear(raw.hour, d, s.roundDampingPower);
      SnapNear(raw.minute, d, s.roundDampingPower);
      SnapNear(raw.second, d, s.roundDampingPower);
      Hands(Snap(raw.hour, d, s.roundDampingPower), Snap(raw.minute, d, s.roundDampingPower),
            Snap(raw.second, d, s.roundDampingPower))
    else raw
  }

  /** A snapped angle is less than one step below the raw angle and less
      than one degree above it; with a damping power of 0 it may reach one
      degree above it exactly. */
  lemma SnapNear(a: real, step: int, power: nat)
    requires step > 0
    ensures power >= 1 ==> a - step as real < Snap(a, step, power) < a + 1.0
    ensures power == 0 ==> a - step as real + 1.0 < Snap(a, step, power) <= a + 1.0
  {
    var q := a / step as real;
    var fl := Floor(q) as real;
    assert fl <= q < fl + 1.0;
    assert a == q * step as real;
    assert fl * step as real <= a by {
      assert fl * step as real <= q * step as real;
    }
    assert a < fl * step as real + step as real by {
      var d := step as real;
      var g := fl + 1.0 - q;
      assert g > 0.0 && d > 0.0;
      assert g * d > 0.0;
      assert fl * d + d - a == g * d;
    }
  }
}

=== FILE: debug_overlay.dfy ===
/** The debug overlay: the last recognised target stays on screen for a
    fixed number of frames, and a button spawns one debug object per
    recognised image, cycling through the prefab list. Widget updates,
    anchors and corner positions are not modelled. */
module DebugOverlay {
  import opened Base

  type Name = string

  /** The overlay is shown while the frame counter is below this. */
  const ValidFrames: int := 20

  /** `lastTarget` is reduced to the recognised image's name;
      `timeSinceScan` is a C# `int`. `objectTypes` maps each image name to the
      prefab index its object was made from, `instances` to the current
      instance, and `spawned` counts instantiations (a fresh instance's id). */
  datatype Overlay = Overlay(
    lastTarget: Option<Name>,
    timeSinceScan: int,
    objectTypes: map<Name, nat>,
    instances: map<Name, nat>,
    spawned: nat)

  const Initial: Overlay := Overlay(None, 0, map[], map[], 0)

  /** A recognition event stores the target and restarts the counter. */
  function OnImageRecognition(o: Overlay, name: Name): (r: Overlay)
    ensures r.lastTarget == Some(name) && r.timeSinceScan == 0
    ensures r.objectTypes == o.objectTypes && r.instances == o.instances && r.spawned == o.spawned
  {
    o.(lastTarget := Some(name), timeSinceScan := 0)
  }

  /** A target is stored and its validity window has not run out. */
  predicate Fresh(o: Overlay)
  {
    o.lastTarget.Some? && o.timeSinceScan < ValidFrames
  }

  /** `Update`: the counter is incremented (wrapping as a 32-bit `int`)
      before it is compared. The result says whether the overlay is shown. */
  function Update(o: Overlay): (r: (Overlay, bool))
    ensures IsInt32(r.0.timeSinceScan) && (r.0.timeSinceScan - (o.timeSinceScan + 1)) % Int32Modulus == 0
    ensures IsInt32(o.timeSinceScan + 1) ==> r.0.timeSinceScan == o.timeSinceScan + 1
    ensures r.1 <==> Fresh(r.0)
    ensures r.0.lastTarget == o.lastTarget && r.0.objectTypes == o.objectTypes && r.0.instances == o.instances
    ensures r.0.spawned == o.spawned
  {
    var next := o.(timeSinceScan := Wrap32(o.timeSinceScan + 1));
    (next, Fresh(next))
  }

  /** The overlay after n further updates. */
  function Updates(o: Overlay, n: nat): Overlay
  {
    if n == 0 then o else Update(Updates(o, n - 1)).0
  }

  lemma {:induction false} UpdatesCount(o: Overlay, n: nat)
    requires o.timeSinceScan == 0 && n <= Int32Max
    ensures Updates(o, n).timeSinceScan == n
    ensures Updates(o, n).lastTarget == o.lastTarget
  {
    if n > 0 {
      UpdatesCount(o, n - 1);
    }
  }

  /** After a recognition the overlay is shown by the 1st to the 19th update
      and hidden by every later one, as long as the counter has not
      wrapped. */
  lemma ShownForNineteenUpdates(o: Overlay, name: Name, n: nat)
    requires 1 <= n <= Int32Max
    ensures Update(Updates(OnImageRecognition(o, name), n - 1)).1 <==> n < ValidFrames
  {
    UpdatesCount(OnImageRecognition(o, name), n - 1);
  }

  /** Without a further recognition the counter wraps to the most negative
      `int` on update 2^31, and the old target is shown again. */
  lemma ReappearsAfterWrap(o: Overlay, name: Name)
    ensures Update(Updates(OnImageRecognition(o, name), Int32Max)).1
  {
    UpdatesCount(OnImageRecognition(o, name), Int32Max);
  }

  /** What pressing the button did. */
  datatype Created =
    | NoEffect
    | Spawned(o: Overlay, prefab: nat)
    | DivideByZero
    | KeyNotFound

  /** `CreateObject` with `prefabCount` debug prefabs. An image that already
      has an object gets a fresh instance of the same prefab; a new image
      gets prefab `count % prefabCount`, where count is the number of images
      with objects; with no prefabs that remainder throws. */
  function CreateObject(o: Overlay, prefabCount: nat): (c: Created)
    ensures !Fresh(o) ==> c == NoEffect
    ensures c.Spawned? ==>
      && Fresh(o)
      && c.o.lastTarget == o.lastTarget && c.o.timeSinceScan == o.timeSinceScan
      && o.lastTarget.value in c.o.instances && c.o.instances[o.lastTarget.value] == o.spawned
      && c.o.spawned == o.spawned + 1
    ensures c.Spawned? ==>
      && c.o.instances == o.instances[o.lastTarget.value := o.spawned]
      && c.o.objectTypes == o.objectTypes[o.lastTarget.value := c.prefab]
    ensures c.DivideByZero? <==> Fresh(o) && o.lastTarget.value !in o.instances && prefabCount == 0
  {
    if !Fresh(o) then NoEffect
    else
      var name := o.lastTarget.value;
      if name in o.instances then
        if name in o.objectTypes then
          Spawned(o.(instances := o.instances[name := o.spawned], spawned := o.spawned + 1), o.objectTypes[name])
        else
          // ruled out by the invariant below
          KeyNotFound
      else if prefabCount == 0 then DivideByZero
      else
        var index := |o.instances| % prefabCount;
        Spawned(o.(objectTypes := o.objectTypes[name := index],
                   instances := o.instances[name := o.spawned],
                   spawned := o.spawned + 1), index)
  }

  /** Both dictionaries have the same names, and every recorded prefab index
      is a valid index into the prefab list. */
  predicate Valid(o: Overlay, prefabCount: nat)
  {
    && o.objectTypes.Keys == o.instances.Keys
    && forall n :: n in o.objectTypes ==> o.objectTypes[n] < prefabCount
  }

  /** Button presses keep the invariant; the prefab used is a valid index,
      an image that already had an object keeps its prefab, and the number
      of images with objects grows by at most one. */
  lemma CreateObjectKeepsValid(o: Overlay, prefabCount: nat)
    requires Valid(o, prefabCount)
    ensures CreateObject(o, prefabCount).Spawned? ==>
      var c := CreateObject(o, prefabCount);
      && Valid(c.o, prefabCount)
      && c.prefab < prefabCount
      && (o.lastTarget.value in o.objectTypes ==> c.prefab == o.objectTypes[o.lastTarget.value])
      && (o.lastTarget.value !in o.objectTypes ==> c.prefab == |o.instances| % prefabCount)
      && c.o.instances.Keys == o.instances.Keys + {o.lastTarget.value}
      && |c.o.instances.Keys| <= |o.instances.Keys| + 1
    ensures !CreateObject(o, prefabCount).KeyNotFound?
    ensures Fresh(o) && prefabCount > 0 ==> CreateObject(o, prefabCount).Spawned?
  {
    if Fresh(o) {
      var name := o.lastTarget.value;
      assert name in o.instances <==> name in o.objectTypes;
      assert |o.instances.Keys + {name}| <= |o.instances.Keys| + 1;
    }
  }

  /** Pressing the button for a second image right after the first cycles
      to the next prefab. */
  lemma PrefabsCycle(a: Name, b: Name, prefabCount: nat)
    requires a != b && prefabCount >= 2
    ensures
      var first := CreateObject(OnImageRecognition(Initial, a), prefabCount);
      && first.Spawned? && first.prefab == 0
      && var second := CreateObject(OnImageRecognition(first.o, b), prefabCount);
      && second.Spawned? && second.prefab == 1
  {
    var first := CreateObject(OnImageRecognition(Initial, a), prefabCount);
    assert first.o.instances == map[a := 0];
    assert |first.o.instances| == 1;
  }
}

=== FILE: enrollment.dfy ===
/** The enrollment schedule: which (image, scale, rotation) variants of the
    reference images are rendered and added to the target catalog, in the
    recognition manager and in the earlier ORB pipeline.

    Rendering, blurring and detection on each variant are GPU work and are
    not modelled; a catalog entry is identified by its key. */
module Enrollment {
  import opened Base

  /** Pixel size of a reference image's texture. */
  datatype ImageSize = ImageSize(width: nat, height: nat)

  /** One enrolled variant of the recognition manager. */
  datatype TargetKey = TargetKey(image: nat, scalePower: int, rotation: int, width: nat, height: nat)

  /** The default rotation list used when `useRotationTypes` is set. */
  const DefaultRotationTypes: seq<int> := [350, 0, 10, 80, 90, 100, 170, 180, 190, 260, 270, 280]

  /** The rotations of each variant: the configured list when
      `useRotationTypes` is set, else every multiple of `rotationAngle`
      below 360. */
  function RotationList(useRotationTypes: bool, rotationTypes: seq<int>, rotationAngle: int): (r: seq<int>)
    requires !useRotationTypes ==> rotationAngle >= 1
    ensures useRotationTypes ==> r == rotationTypes
    ensures !useRotationTypes ==>
      && |r| == 360 / rotationAngle
      && |r| * rotationAngle <= 360 < (|r| + 1) * rotationAngle
      && (forall i :: 0 <= i < |r| ==> r[i] == i * rotationAngle)
      && (|r| > 0 ==> r[0] == 0)
      && (forall i :: 0 <= i < |r| ==> 0 <= r[i] < 360 && r[i] % rotationAngle == 0)
      && (forall i, j :: 0 <= i < j < |r| ==> r[i] < r[j])
  {
    if useRotationTypes then rotationTypes
    else
      var n := 360 / rotationAngle;
      var r := seq(n, i requires 0 <= i < n => i * rotationAngle);
      MultiplesBelow360(r, rotationAngle);
      r
  }

  /** The multiples 0, a, 2a, ... that fit below 360 are in range, divisible
      by a and increasing. */
  lemma MultiplesBelow360(r: seq<int>, a: int)
    requires a >= 1 && |r| == 360 / a
    requires forall i :: 0 <= i < |r| ==> r[i] == i * a
    ensures |r| * a <= 360 < (|r| + 1) * a
    ensures forall i :: 0 <= i < |r| ==> 0 <= r[i] < 360 && r[i] % a == 0
    ensures forall i, j :: 0 <= i < j < |r| ==> r[i] < r[j]
  {
    var n := |r|;
    assert n * a <= 360 < (n + 1) * a by {
      assert 360 == n * a + 360 % a;
    }
    forall i | 0 <= i < n
      ensures 0 <= r[i] < 360 && r[i] % a == 0
    {
      MulMonotone(i + 1, n, a);
      MulMod(i, a);
    }
    forall i, j | 0 <= i < j < n
      ensures r[i] < r[j]
    {
      MulMonotone(i + 1, j, a);
    }
  }

  lemma MulAssoc(a: int, b: int, c: int)
    ensures a * b * c == a * (b * c)
  {
  }

  lemma MulAddAssoc(i: int, n: int, j: int, r: int)
    ensures (i * n + j) * r == i * (n * r) + j * r
  {
    MulAssoc(i, n, r);
  }

  /** A multiple of a is divisible by a. */
  lemma MulMod(i: nat, a: nat)
    requires a >= 1
    ensures (i * a) % a == 0
  {
    DivUnique(i * a, a, i, 0);
  }

  /** The scale powers, largest first: maxScalePower - j for j < numScales. */
  function ScalePowers(maxScalePower: int, numScales: nat): (r: seq<int>)
    ensures |r| == numScales
    ensures numScales > 0 ==> r[0] == maxScalePower && r[numScales - 1] == maxScalePower - numScales + 1
    ensures forall j :: 0 < j < |r| ==> r[j] == r[j - 1] - 1
  {
    seq(numScales, j requires 0 <= j < numScales => maxScalePower - j)
  }

  /** `(int)(Mathf.Pow(2, power) * size)`: the texture side scaled by 2^power,
      truncated. */
  function ScaledSize(size: nat, power: int): (r: nat)
    ensures power >= 0 ==> r == size * Pow2(power) && r >= size
    ensures power < 0 ==> r * Pow2(-power) <= size < (r + 1) * Pow2(-power)
    ensures power <= 0 ==> r <= size
  {
    if power >= 0 then
      MulMonotone(1, Pow2(power), size);
      size * Pow2(power)
    else
      DivBounds(size, Pow2(-power));
      FloorQuotient(size, Pow2(-power));
      size / Pow2(-power)
  }

  /** The quotient of a non-negative dividend is the largest multiple of
      the divisor that fits. */
  lemma FloorQuotient(a: nat, d: nat)
    requires d >= 1
    ensures (a / d) * d <= a < (a / d + 1) * d
  {
    assert a == (a / d) * d + a % d;
  }

  /** `size / (1 << j)`: the texture side divided by 2^j. */
  function DividedSize(size: nat, j: nat): nat
  {
    DivBounds(size, Pow2(j));
    size / Pow2(j)
  }

  /** Each further scale halves the previous size (integer division), so
      sizes never increase from one scale to the next. */
  lemma DividedSizeHalves(size: nat, j: nat)
    ensures DividedSize(size, j + 1) == DividedSize(size, j) / 2
    ensures DividedSize(size, j + 1) <= DividedSize(size, j)
  {
    DivDiv(size, Pow2(j), 2);
    assert Pow2(j + 1) == Pow2(j) * 2;
  }

  lemma {:induction false} DividedSizeMonotone(size: nat, j: nat, k: nat)
    requires j <= k
    ensures DividedSize(size, k) <= DividedSize(size, j)
    decreases k - j
  {
    if j < k {
      DividedSizeHalves(size, k - 1);
      DividedSizeMonotone(size, j, k - 1);
    }
  }

  // ---------------------------------------------------------------------
  // Recognition manager catalog: image-major, then scale, then rotation.

  function ScaleBlock(i: nat, img: ImageSize, scalePower: int, rotations: seq<int>): (b: seq<TargetKey>)
    ensures |b| == |rotations|
  {
    seq(|rotations|, k requires 0 <= k < |rotations| =>
      TargetKey(i, scalePower, rotations[k], ScaledSize(img.width, scalePower), ScaledSize(img.height, scalePower)))
  }

  function ScaleBlocks(i: nat, img: ImageSize, maxScalePower: int, numScales: nat, rotations: seq<int>): (bs: seq<seq<TargetKey>>)
    ensures |bs| == numScales
    ensures forall j :: 0 <= j < numScales ==> bs[j] == ScaleBlock(i, img, maxScalePower - j, rotations)
  {
    seq(numScales, j requires 0 <= j < numScales => ScaleBlock(i, img, maxScalePower - j, rotations))
  }

  function ImageBlock(i: nat, img: ImageSize, maxScalePower: int, numScales: nat, rotations: seq<int>): (b: seq<TargetKey>)
    ensures |b| == numScales * |rotations|
  {
    FlattenLength(ScaleBlocks(i, img, maxScalePower, numScales, rotations), |rotations|);
    Flatten(ScaleBlocks(i, img, maxScalePower, numScales, rotations))
  }

  function ImageBlocks(images: seq<ImageSize>, maxScalePower: int, numScales: nat, rotations: seq<int>): (bs: seq<seq<TargetKey>>)
    ensures |bs| == |images|
    ensures forall i :: 0 <= i < |images| ==> bs[i] == ImageBlock(i, images[i], maxScalePower, numScales, rotations)
  {
    seq(|images|, i requires 0 <= i < |images| => ImageBlock(i, images[i], maxScalePower, numScales, rotations))
  }

  /** The catalog the recognition manager's `Awake` builds, one target per
      (image, scale power, rotation), in loop order. */
  function Catalog(images: seq<ImageSize>, maxScalePower: int, numScales: nat, rotations: seq<int>): seq<TargetKey>
  {
    Flatten(ImageBlocks(images, maxScalePower, numScales, rotations))
  }

  /** The catalog has images x scales x rotations entries, and the entry for
      image i, scale j, rotation k is at (i * numScales + j) * |rotations| + k,
      with scale power maxScalePower - j and the size scaled accordingly. */
  lemma CatalogEntry(images: seq<ImageSize>, maxScalePower: int, numScales: nat, rotations: seq<int>, i: nat, j: nat, k: nat)
    requires i < |images| && j < numScales && k < |rotations|
    ensures |Catalog(images, maxScalePower, numScales, rotations)| == |images| * numScales * |rotations|
    ensures (i * numScales + j) * |rotations| + k < |Catalog(images, maxScalePower, numScales, rotations)|
    ensures Catalog(images, maxScalePower, numScales, rotations)[(i * numScales + j) * |rotations| + k]
         == TargetKey(i, maxScalePower - j, rotations[k],
                      ScaledSize(images[i].width, maxScalePower - j), ScaledSize(images[i].height, maxScalePower - j))
  {
    var R := |rotations|;
    var outer := ImageBlocks(images, maxScalePower, numScales, rotations);
    var inner := ScaleBlocks(i, images[i], maxScalePower, numScales, rotations);
    FlattenLength(outer, numScales * R);
    assert j * R + k < numScales * R by {
      MulMonotone(j + 1, numScales, R);
    }
    FlattenIndex(outer, numScales * R, i, j * R + k);
    FlattenIndex(inner, R, j, k);
    MulAddAssoc(i, numScales, j, R);
    MulAssoc(|images|, numScales, R);
  }

  // ---------------------------------------------------------------------
  // ORB catalog: scale j uses divisor 1 << j over a fixed rotation list.

  const OrbNumScales: nat := 5
  const OrbRotations: seq<int> := [345, 0, 15, 75, 90, 105, 165, 180, 195, 255, 270, 285]

  /** One enrolled ORB variant: `scale` is the divisor 2^j. */
  datatype OrbTargetKey = OrbTargetKey(image: nat, scale: nat, rotation: int, width: nat, height: nat)

  /** `1 << j` on a 32-bit `int`, for the shift counts below 31 at which it
      is still positive: the shifted bit pattern read as a number is 2^j. */
  function ScaleDivisor(j: nat): (d: nat)
    requires j < 31
    ensures d == Pow2(j) && d >= 1
  {
    ShiftIsPow2(j);
    ((1 as bv32) << j) as int
  }

  /** Shifting a one bit left j places in 32 bits gives 2^j while the bit
      stays below the sign bit. */
  lemma {:induction false} ShiftIsPow2(j: nat)
    requires j < 31
    ensures ((1 as bv32) << j) as int == Pow2(j)
  {
    if j > 0 {
      ShiftIsPow2(j - 1);
      ShiftOneMore(j);
      DoubleBelowSignBit((1 as bv32) << (j - 1), Pow2(j - 1));
    }
  }

  /** One more place of shift is one more doubling. */
  lemma ShiftOneMore(j: nat)
    requires 0 < j < 31
    ensures (1 as bv32) << j == ((1 as bv32) << (j - 1)) << 1
    ensures (1 as bv32) << (j - 1) < 0x4000_0000
  {
    var k := (j - 1) as bv32;
    assert (1 as bv32) << j == (1 as bv32) << (k + 1);
    assert (1 as bv32) << (j - 1) == (1 as bv32) << k;
    ShiftSucc(k);
  }

  lemma ShiftSucc(k: bv32)
    requires k < 30
    ensures (1 as bv32) << (k + 1) == ((1 as bv32) << k) << 1
    ensures (1 as bv32) << k < 0x4000_0000
  {
  }

  /** Doubling a pattern below the top two bits doubles its value. */
  lemma DoubleBelowSignBit(x: bv32, p: int)
    requires x < 0x4000_0000 && x as int == p
    ensures (x << 1) as int == 2 * p
  {
  }

  function OrbScaleBlock(i: nat, img: ImageSize, j: nat): (b: seq<OrbTargetKey>)
    requires j < 31
    ensures |b| == |OrbRotations|
  {
    seq(|OrbRotations|, k requires 0 <= k < |OrbRotations| =>
      OrbTargetKey(i, ScaleDivisor(j), OrbRotations[k], DividedSize(img.width, j), DividedSize(img.height, j)))
  }

  function OrbScaleBlocks(i: nat, img: ImageSize): (bs: seq<seq<OrbTargetKey>>)
    ensures |bs| == OrbNumScales
    ensures forall j :: 0 <= j < OrbNumScales ==> bs[j] == OrbScaleBlock(i, img, j)
  {
    seq(OrbNumScales, j requires 0 <= j < OrbNumScales => OrbScaleBlock(i, img, j))
  }

  function OrbImageBlocks(images: seq<ImageSize>): (bs: seq<seq<OrbTargetKey>>)
    ensures |bs| == |images|
    ensures forall i :: 0 <= i < |images| ==> bs[i] == Flatten(OrbScaleBlocks(i, images[i]))
  {
    seq(|images|, i requires 0 <= i < |images| => Flatten(OrbScaleBlocks(i, images[i])))
  }

  /** The catalog the ORB `Awake` builds: five scales, twelve rotations. */
  function OrbCatalog(images: seq<ImageSize>): seq<OrbTargetKey>
  {
    Flatten(OrbImageBlocks(images))
  }

  /** Entry (i, j, k) of the ORB catalog sits at i * 60 + j * 12 + k and
      uses divisor 2^j with the texture sides integer-divided by it. */
  lemma OrbCatalogEntry(images: seq<ImageSize>, i: nat, j: nat, k: nat)
    requires i < |images| && j < OrbNumScales && k < |OrbRotations|
    ensures |OrbCatalog(images)| == |images| * 60
    ensures i * 60 + j * 12 + k < |OrbCatalog(images)|
    ensures OrbCatalog(images)[i * 60 + j * 12 + k]
         == OrbTargetKey(i, Pow2(j), OrbRotations[k], DividedSize(images[i].width, j), DividedSize(images[i].height, j))
  {
    var outer := OrbImageBlocks(images);
    forall ii | 0 <= ii < |images|
      ensures |outer[ii]| == 60
    {
      FlattenLength(OrbScaleBlocks(ii, images[ii]), 12);
    }
    FlattenLength(outer, 60);
    FlattenIndex(outer, 60, i, j * 12 + k);
    FlattenIndex(OrbScaleBlocks(i, images[i]), 12, j, k);
    assert OrbCatalog(images)[i * 60 + j * 12 + k] == outer[i][j * 12 + k];
    assert outer[i][j * 12 + k] == OrbScaleBlock(i, images[i], j)[k];
    assert |OrbRotations| == 12;
    assert OrbScaleBlock(i, images[i], j)[k]
        == OrbTargetKey(i, ScaleDivisor(j), OrbRotations[k], DividedSize(images[i].width, j), DividedSize(images[i].height, j));
  }
}

=== FILE: fast_threshold.dfy ===
/** Host-side control of corner detection: the adaptive threshold loop that
    re-runs the corner shader with a lower threshold until enough candidates
    appear, and the fixed-capacity truncations applied to its output.

    The corner shader itself is not modelled: `countAt(k)` is the number of
    candidates it reports in round k (round k runs at `ThresholdAfter(k)`).
    Thresholds are kept in hundredths (0.40 is 40). */
module FastThreshold {
  import opened Base

  const InitialThreshold: int := 40
  const MinThreshold: int := 10
  const ThresholdStep: int := 5

  /** Capacities of the recognition manager. */
  const MaxCandidates: nat := 800
  const MaxKeypoints: nat := 200

  /** Capacities of the earlier ORB pipeline. */
  const OrbMaxCandidates: nat := 1000
  const OrbMaxKeypoints: nat := 500

  /** Rounds the ORB loop can run: (40 - 10) / 5 + 1. */
  const OrbRoundLimit: nat := 7

  /** The threshold once `rounds` decrements have been applied; round k runs
      the shader at `ThresholdAfter(k)`. */
  function ThresholdAfter(rounds: nat): int
  {
    InitialThreshold - rounds * ThresholdStep
  }

  /** How the loop ended: after `rounds` rounds, the last count it read and
      the threshold it had already decremented to. */
  datatype FastExit = FastExit(rounds: nat, count: nat, threshold: int)

  /** What the detector hands on: the length of the candidate array and the
      number of keypoints reported after suppression. */
  datatype FastResult = FastResult(candidates: nat, keypoints: nat)

  // ---------------------------------------------------------------------
  // Recognition manager: `while (count == 0 || (count < max && t >= min))`

  predicate Continues(count: nat, threshold: int)
  {
    count == 0 || (count < MaxKeypoints && threshold >= MinThreshold)
  }

  /** The loop guard held after each of rounds 1..n. */
  ghost predicate GuardHeldThrough(countAt: nat -> nat, n: nat)
  {
    forall k: nat :: 1 <= k <= n ==> Continues(countAt(k - 1), ThresholdAfter(k))
  }

  /** The adaptive loop, observed for at most `fuel` rounds. `None` means the
      loop was still running after `fuel` rounds; it never ends on a frame
      whose count stays 0 (see `BlankFrameNeverExits`). */
  method AdaptiveFast(countAt: nat -> nat, fuel: nat) returns (r: Option<FastExit>)
    ensures r.Some? ==>
      && 1 <= r.value.rounds <= fuel
      && r.value.count == countAt(r.value.rounds - 1)
      && r.value.threshold == ThresholdAfter(r.value.rounds)
      && r.value.count > 0
      && (r.value.count >= MaxKeypoints || r.value.threshold < MinThreshold)
      && GuardHeldThrough(countAt, r.value.rounds - 1)
    ensures r.None? ==> GuardHeldThrough(countAt, fuel)
  {
    var count: nat := 0;
    var threshold := InitialThreshold;
    var rounds: nat := 0;
    while Continues(count, threshold)
      invariant rounds <= fuel
      invariant threshold == ThresholdAfter(rounds)
      invariant rounds > 0 ==> count == countAt(rounds - 1)
      invariant rounds == 0 ==> count == 0
      invariant GuardHeldThrough(countAt, if rounds == 0 then 0 else rounds - 1)
      decreases fuel - rounds
    {
      if rounds == fuel {
        return None;
      }
      count := countAt(rounds);
      threshold := threshold - ThresholdStep;
      rounds := rounds + 1;
    }
    return Some(FastExit(rounds, count, threshold));
  }

  /** A frame whose corner count stays 0 keeps the loop running for ever:
      with any amount of fuel the guard still holds. */
  lemma BlankFrameNeverExits(countAt: nat -> nat, fuel: nat)
    requires forall k: nat :: countAt(k) == 0
    ensures GuardHeldThrough(countAt, fuel)
  {
  }

  /** Once every round reports some candidate, the guard fails by round 7
      (threshold 0.05), so `AdaptiveFast` with fuel 7 returns a result. */
  lemma ExitsOnceCornersAppear(countAt: nat -> nat)
    requires forall k: nat :: k < OrbRoundLimit ==> countAt(k) > 0
    ensures !GuardHeldThrough(countAt, OrbRoundLimit)
  {
    assert !Continues(countAt(OrbRoundLimit - 1), ThresholdAfter(OrbRoundLimit));
  }

  /** Capacity truncations of the recognition manager: the candidate array
      holds at most 800 entries and at most 200 keypoints are reported. */
  function Capped(count: nat, suppressed: nat): (r: FastResult)
    ensures r.candidates <= MaxCandidates && r.candidates <= count
    ensures r.candidates == count || r.candidates == MaxCandidates
    ensures r.keypoints <= MaxKeypoints && r.keypoints <= suppressed
    ensures r.keypoints == suppressed || r.keypoints == MaxKeypoints
  {
    FastResult(Min(count, MaxCandidates), Min(suppressed, MaxKeypoints))
  }

  // ---------------------------------------------------------------------
  // ORB pipeline: `while (count < max && t >= min)`

  predicate OrbContinues(count: nat, threshold: int)
  {
    count < OrbMaxKeypoints && threshold >= MinThreshold
  }

  /** The ORB loop from round `rounds`, having last read `count`. */
  function OrbLoop(countAt: nat -> nat, rounds: nat, count: nat): (e: FastExit)
    requires rounds <= OrbRoundLimit
    ensures rounds <= e.rounds <= OrbRoundLimit
    ensures e.threshold == ThresholdAfter(e.rounds)
    ensures e.rounds == rounds ==> e.count == count
    ensures e.rounds > rounds ==> e.count == countAt(e.rounds - 1)
    ensures !OrbContinues(e.count, e.threshold)
    ensures OrbContinues(count, ThresholdAfter(rounds)) ==> e.rounds > rounds
    ensures forall k: nat :: rounds < k < e.rounds ==> OrbContinues(countAt(k - 1), ThresholdAfter(k))
    decreases OrbRoundLimit - rounds
  {
    if OrbContinues(count, ThresholdAfter(rounds)) then
      OrbLoop(countAt, rounds + 1, countAt(rounds))
    else
      FastExit(rounds, count, ThresholdAfter(rounds))
  }

  /** The ORB loop always terminates, after at most 7 rounds, and exits
      with enough candidates or a threshold below the floor. */
  function OrbFast(countAt: nat -> nat): (e: FastExit)
    ensures 1 <= e.rounds <= OrbRoundLimit
    ensures e.count == countAt(e.rounds - 1)
    ensures e.threshold == ThresholdAfter(e.rounds)
    ensures e.count >= OrbMaxKeypoints || e.threshold < MinThreshold
    ensures forall k: nat :: 1 <= k < e.rounds ==> OrbContinues(countAt(k - 1), ThresholdAfter(k))
  {
    OrbLoop(countAt, 0, 0)
  }

  /** A frame without corners runs all seven rounds, the last at 0.10. */
  lemma OrbBlankFrameRunsEveryRound(countAt: nat -> nat)
    requires forall k: nat :: countAt(k) == 0
    ensures OrbFast(countAt).rounds == OrbRoundLimit
    ensures ThresholdAfter(OrbRoundLimit - 1) == MinThreshold
  {
  }

  /** ORB truncation: the candidate array is capped at 1000, but the count
      after suppression is returned without a cap. */
  function OrbCapped(count: nat, suppressed: nat): (r: FastResult)
    ensures r.candidates <= OrbMaxCandidates && r.candidates <= count
    ensures r.candidates == count || r.candidates == OrbMaxCandidates
    ensures r.keypoints == suppressed
  {
    FastResult(Min(count, OrbMaxCandidates), suppressed)
  }

  // ---------------------------------------------------------------------
  // The threshold as written: `threshold -= 0.05f` in IEEE-754 binary32.

  /** A positive binary32 number `mantissa / 2^scale`, normalised so that
      2^23 <= mantissa < 2^24; one unit in the last place is 1 / 2^scale. */
  datatype Binary32 = Binary32(mantissa: nat, scale: nat)
  {
    predicate Normal() { 0x80_0000 <= mantissa < 0x100_0000 }
    function Value(): real { mantissa as real / Pow2(scale) as real }
    function Ulp(): real { 1.0 / Pow2(scale) as real }
  }

  /** `c` is a round-to-nearest binary32 result for the exact value `x`:
      `x` lies in the binade of `c` and `c` is within half an ulp of it. */
  predicate RoundsTo(x: real, c: Binary32)
  {
    && c.Normal()
    && 0x80_0000 as real * c.Ulp() <= x < 0x100_0000 as real * c.Ulp()
    && -c.Ulp() / 2.0 <= c.Value() - x <= c.Ulp() / 2.0
  }

  /** 0.4f, 0.05f and 0.1f. */
  const Float32Initial: Binary32 := Binary32(13421773, 25)
  const Float32Step: Binary32 := Binary32(13421773, 28)
  const Float32Min: Binary32 := Binary32(13421773, 27)

  /** The binary32 threshold after k subtractions of 0.05f from 0.4f,
      for k = 0..6. */
  const Float32Thresholds: seq<Binary32> := [
    Float32Initial,
    Binary32(11744051, 25),
    Binary32(10066329, 25),
    Binary32(16777215, 26),
    Binary32(13421772, 26),
    Binary32(10066329, 26),
    Binary32(13421772, 27)
  ]

  lemma Pow2Values()
    ensures Pow2(25) == 33554432 && Pow2(26) == 67108864
    ensures Pow2(27) == 134217728 && Pow2(28) == 268435456
  {
    assert Pow2(10) == 1024;
    assert Pow2(20) == 1048576;
  }

  /** Each table entry is the correctly rounded difference of the previous
      entry and 0.05f, so the table is what the running subtraction yields. */
  lemma Float32ThresholdsAreRoundedSteps()
    ensures forall k :: 0 <= k < |Float32Thresholds| - 1 ==>
      RoundsTo(Float32Thresholds[k].Value() - Float32Step.Value(), Float32Thresholds[k + 1])
  {
    forall k | 0 <= k < |Float32Thresholds| - 1
      ensures RoundsTo(Float32Thresholds[k].Value() - Float32Step.Value(), Float32Thresholds[k + 1])
    {
      RoundedStep(k);
    }
  }

  /** One subtraction: the exact difference lies in the binade of the next
      entry, within half of its ulp. */
  lemma RoundedStep(k: nat)
    requires k < |Float32Thresholds| - 1
    ensures RoundsTo(Float32Thresholds[k].Value() - Float32Step.Value(), Float32Thresholds[k + 1])
  {
    if k == 0 {
      RoundedStep0();
    } else if k == 1 {
      RoundedStep1();
    } else if k == 2 {
      RoundedStep2();
    } else if k == 3 {
      RoundedStep3();
    } else if k == 4 {
      RoundedStep4();
    } else {
      RoundedStep5();
    }
  }

  /** The six subtractions, one lemma each, so that each rounding check
      stays small. */
  lemma RoundedStep0()
    ensures RoundsTo(Float32Thresholds[0].Value() - Float32Step.Value(), Float32Thresholds[1])
  {
    Pow2Values();
    StepRounds(Binary32(13421773, 25), Binary32(11744051, 25), 33554432, 33554432);
  }

  lemma RoundedStep1()
    ensures RoundsTo(Float32Thresholds[1].Value() - Float32Step.Value(), Float32Thresholds[2])
  {
    Pow2Values();
    StepRounds(Binary32(11744051, 25), Binary32(10066329, 25), 33554432, 33554432);
  }

  lemma RoundedStep2()
    ensures RoundsTo(Float32Thresholds[2].Value() - Float32Step.Value(), Float32Thresholds[3])
  {
    Pow2Values();
    StepRounds(Binary32(10066329, 25), Binary32(16777215, 26), 33554432, 67108864);
  }

  lemma RoundedStep3()
    ensures RoundsTo(Float32Thresholds[3].Value() - Float32Step.Value(), Float32Thresholds[4])
  {
    Pow2Values();
    StepRounds(Binary32(16777215, 26), Binary32(13421772, 26), 67108864, 67108864);
  }

  lemma RoundedStep4()
    ensures RoundsTo(Float32Thresholds[4].Value() - Float32Step.Value(), Float32Thresholds[5])
  {
    Pow2Values();
    StepRounds(Binary32(13421772, 26), Binary32(10066329, 26), 67108864, 67108864);
  }

  lemma RoundedStep5()
    ensures RoundsTo(Float32Thresholds[5].Value() - Float32Step.Value(), Float32Thresholds[6])
  {
    Pow2Values();
    StepRounds(Binary32(10066329, 26), Binary32(13421772, 27), 67108864, 134217728);
  }

  /** The rounding condition with the powers of two supplied. */
  lemma StepRounds(a: Binary32, c: Binary32, pa: nat, pc: nat)
    requires pa == Pow2(a.scale) && pc == Pow2(c.scale) && c.Normal()
    requires
      var x := a.mantissa as real / pa as real - Float32Step.mantissa as real / 268435456.0;
      var u := 1.0 / pc as real;
      && 0x80_0000 as real * u <= x < 0x100_0000 as real * u
      && -u / 2.0 <= c.mantissa as real / pc as real - x <= u / 2.0
    ensures RoundsTo(a.Value() - Float32Step.Value(), c)
  {
    Pow2Values();
    ValueOver(a, pa);
    ValueOver(c, pc);
    ValueOver(Float32Step, 268435456);
  }

  /** A binary32 value and its ulp, given the value of 2^scale. */
  lemma ValueOver(b: Binary32, p: nat)
    requires p == Pow2(b.scale)
    ensures b.Value() == b.mantissa as real / p as real
    ensures b.Ulp() == 1.0 / p as real
  {
  }

  /** In binary32 the threshold after six subtractions is already below
      0.1f, although in exact arithmetic it would equal 0.10. */
  lemma SixthFloat32ThresholdBelowMinimum()
    ensures Float32Thresholds[6].Value() < Float32Min.Value()
    ensures forall k :: 0 <= k < 6 ==> Float32Thresholds[k].Value() >= Float32Min.Value()
    ensures ThresholdAfter(6) == MinThreshold
  {
    Pow2Values();
  }

  predicate OrbContinuesAsWritten(count: nat, rounds: nat)
    requires rounds < |Float32Thresholds|
  {
    count < OrbMaxKeypoints && Float32Thresholds[rounds].Value() >= Float32Min.Value()
  }

  /** The as-written guard holds exactly while fewer than 500 candidates
      were found and fewer than six subtractions were made. */
  lemma AsWrittenGuardAt(count: nat, rounds: nat)
    requires rounds <= 6
    ensures OrbContinuesAsWritten(count, rounds) <==> count < OrbMaxKeypoints && rounds < 6
  {
    SixthFloat32ThresholdBelowMinimum();
  }

  /** The as-written guard held after round k, with the count round k read. */
  predicate AsWrittenGuardHeld(countAt: nat -> nat, k: nat)
    requires 1 <= k <= 6
  {
    OrbContinuesAsWritten(countAt(k - 1), k)
  }

  /** How the as-written loop ended: the threshold is the binary32 value
      after `rounds` subtractions. */
  datatype AsWrittenExit = AsWrittenExit(rounds: nat, count: nat, threshold: Binary32)

  /** The ORB loop with the binary32 threshold of the source, from round
      `rounds`, having last read `count`. */
  function OrbLoopAsWritten(countAt: nat -> nat, rounds: nat, count: nat): (e: AsWrittenExit)
    requires rounds <= 6
    ensures rounds <= e.rounds <= 6
    ensures e.threshold == Float32Thresholds[e.rounds]
    ensures e.rounds == rounds ==> e.count == count
    ensures e.rounds > rounds ==> e.count == countAt(e.rounds - 1)
    ensures !OrbContinuesAsWritten(e.count, e.rounds)
    ensures OrbContinuesAsWritten(count, rounds) ==> e.rounds > rounds
    ensures forall k: nat :: rounds < k < e.rounds ==> AsWrittenGuardHeld(countAt, k)
    decreases 6 - rounds
  {
    AsWrittenGuardAt(count, rounds);
    if OrbContinuesAsWritten(count, rounds) then
      OrbLoopAsWritten(countAt, rounds + 1, countAt(rounds))
    else
      AsWrittenExit(rounds, count, Float32Thresholds[rounds])
  }

  /** The discrepancy: on a frame without corners the loop as written stops
      after six rounds, so the lowest threshold it ever tries is 0.15 and
      the configured floor 0.10 is never used; the corrected loop `OrbFast`
      runs a seventh round at exactly the floor. */
  lemma {:induction false} AsWrittenSkipsMinimumThreshold(countAt: nat -> nat)
    requires forall k: nat :: countAt(k) == 0
    ensures OrbLoopAsWritten(countAt, 0, 0).rounds == 6
    ensures ThresholdAfter(OrbLoopAsWritten(countAt, 0, 0).rounds - 1) == 15
    ensures OrbLoopAsWritten(countAt, 0, 0).threshold.Value() < Float32Min.Value()
    ensures OrbFast(countAt).rounds == 7
    ensures ThresholdAfter(OrbFast(countAt).rounds - 1) == MinThreshold
  {
    OrbBlankFrameRunsEveryRound(countAt);
    AsWrittenBlankFrame(countAt, 0);
  }

  /** On a frame without corners the as-written loop, entered at any round
      up to six, stops exactly at round six. */
  lemma {:induction false} AsWrittenBlankFrame(countAt: nat -> nat, rounds: nat)
    requires forall k: nat :: countAt(k) == 0
    requires rounds <= 6
    ensures OrbLoopAsWritten(countAt, rounds, 0).rounds == 6
    decreases 6 - rounds
  {
    SixthFloat32ThresholdBelowMinimum();
    if rounds < 6 {
      assert OrbContinuesAsWritten(0, rounds);
      AsWrittenBlankFrame(countAt, rounds + 1);
    }
  }
}

=== FILE: intensity.dfy ===
/** The red-channel extremes scan used before normalisation, in the earlier
    pipeline's `NormalizeRT` and in the marker enrollment prototype. */
module Intensity {

  /** A colour channel of a `Color32` pixel. */
  type Byte = x: int | 0 <= x < 256

  /** The scan starts from min = 255 and max = 0 and folds every pixel's red
      value in with `Mathf.Min` / `Mathf.Max`. */
  method RedExtremes(reds: seq<Byte>) returns (lo: int, hi: int)
    ensures forall k :: 0 <= k < |reds| ==> lo <= reds[k] <= hi
    ensures |reds| > 0 ==> (exists k :: 0 <= k < |reds| && reds[k] == lo)
    ensures |reds| > 0 ==> (exists k :: 0 <= k < |reds| && reds[k] == hi)
    ensures |reds| == 0 ==> lo == 255 && hi == 0
    ensures 0 <= lo <= 255 && 0 <= hi <= 255
  {
    lo := 255;
    hi := 0;
    var k := 0;
    while k < |reds|
      invariant 0 <= k <= |reds|
      invariant 0 <= lo <= 255 && 0 <= hi <= 255
      invariant forall p :: 0 <= p < k ==> lo <= reds[p] <= hi
      invariant k > 0 ==> (exists p :: 0 <= p < k && reds[p] == lo)
      invariant k > 0 ==> (exists p :: 0 <= p < k && reds[p] == hi)
      invariant k == 0 ==> lo == 255 && hi == 0
    {
      lo := if reds[k] <= lo then reds[k] else lo;
      hi := if reds[k] >= hi then reds[k] else hi;
      k := k + 1;
    }
  }
}

=== FILE: marker_keypoints.dfy ===
/** The marker enrollment prototype: one keypoint texture per (marker,
    scale), stored both in a two-dimensional array and in a flat array at
    index `i * numScales + j`. The blur, grey, normalise and keypoint
    shaders are not modelled; a texture is identified by what it was made
    from and its size. */
module MarkerKeypoints {
  import opened Base
  import opened Enrollment

  datatype KeypointTexture = KeypointTexture(marker: nat, divisor: nat, width: nat, height: nat)

  /** The texture of marker i at scale j: divisor `1 << j`, sides divided by
      it. Shifts stay below 31, where `1 << j` is still a positive `int`. */
  function ScaleTexture(i: nat, marker: ImageSize, j: nat): (t: KeypointTexture)
    requires j < 31
    ensures t.divisor == Pow2(j)
    ensures t.width * t.divisor <= marker.width < (t.width + 1) * t.divisor
    ensures t.height * t.divisor <= marker.height < (t.height + 1) * t.divisor
  {
    var d := ScaleDivisor(j);
    FloorQuotient(marker.width, d);
    FloorQuotient(marker.height, d);
    KeypointTexture(i, d, DividedSize(marker.width, j), DividedSize(marker.height, j))
  }

  /** Later scales never have larger textures. */
  lemma ScaleTexturesShrink(i: nat, marker: ImageSize, j: nat, k: nat)
    requires j <= k < 31
    ensures ScaleTexture(i, marker, k).width <= ScaleTexture(i, marker, j).width
    ensures ScaleTexture(i, marker, k).height <= ScaleTexture(i, marker, j).height
  {
    DividedSizeMonotone(marker.width, j, k);
    DividedSizeMonotone(marker.height, j, k);
  }

  /** `keypoints[i, j]`: row i holds marker i's textures, scale by scale. */
  function Grid(markers: seq<ImageSize>, numScales: nat): (g: seq<seq<KeypointTexture>>)
    requires numScales <= 31
    ensures |g| == |markers|
    ensures forall i :: 0 <= i < |g| ==> |g[i]| == numScales
    ensures forall i, j :: 0 <= i < |g| && 0 <= j < numScales ==> g[i][j] == ScaleTexture(i, markers[i], j)
  {
    seq(|markers|, i requires 0 <= i < |markers| =>
      seq(numScales, j requires 0 <= j < numScales => ScaleTexture(i, markers[i], j)))
  }

  /** `keypoints2`: the same textures, row after row. */
  function Flat(markers: seq<ImageSize>, numScales: nat): seq<KeypointTexture>
    requires numScales <= 31
  {
    Flatten(Grid(markers, numScales))
  }

  /** The flat index of (i, j) is in range, and the flat array holds at that
      index the texture the grid holds at [i, j]. */
  lemma FlatAgreesWithGrid(markers: seq<ImageSize>, numScales: nat, i: nat, j: nat)
    requires numScales <= 31
    requires i < |markers| && j < numScales
    ensures |Flat(markers, numScales)| == |markers| * numScales
    ensures i * numScales + j < |markers| * numScales
    ensures Flat(markers, numScales)[i * numScales + j] == Grid(markers, numScales)[i][j]
  {
    FlattenLength(Grid(markers, numScales), numScales);
    FlattenIndex(Grid(markers, numScales), numScales, i, j);
  }

  /** Distinct (marker, scale) pairs land on distinct flat indices, so no
      texture overwrites another. */
  lemma FlatIndexInjective(numScales: nat, i: nat, j: nat, i2: nat, j2: nat)
    requires j < numScales && j2 < numScales
    requires i * numScales + j == i2 * numScales + j2
    ensures i == i2 && j == j2
  {
    DivUnique(i * numScales + j, numScales, i, j);
    DivUnique(i2 * numScales + j2, numScales, i2, j2);
  }
}

=== FILE: matching.dfy ===
/** Best-target selection, the acceptance gate and the integer origin
    estimate of `FeatureMatch`, in both pipeline variants.

    The Hamming matching kernels are not modelled: for each catalog target
    the model receives what they leave behind, the arg-min array (for every
    target keypoint, the closest frame keypoint) and the appended list of
    matched target keypoints. The match rate `matches / numKeypoints` is a
    float division; it is modelled with exact reals plus the two special
    values an IEEE division by zero yields. */
module Matching {
  import opened Base

  /** A match rate: 0/0 is NaN, n/0 for n > 0 is +Infinity, otherwise the
      exact quotient. */
  datatype Rate = NaN | PosInf | Finite(q: real)

  function RateOf(count: nat, total: nat): (r: Rate)
    ensures r.NaN? <==> count == 0 && total == 0
    ensures r.PosInf? <==> count > 0 && total == 0
    ensures r.Finite? ==> total > 0 && r.q * total as real == count as real
  {
    if total == 0 then (if count == 0 then NaN else PosInf)
    else Finite(count as real / total as real)
  }

  /** IEEE `a > b`: false whenever either side is NaN. */
  predicate Greater(a: Rate, b: Rate)
  {
    match (a, b)
    case (NaN, _) => false
    case (_, NaN) => false
    case (PosInf, PosInf) => false
    case (PosInf, Finite(_)) => true
    case (Finite(_), PosInf) => false
    case (Finite(x), Finite(y)) => x > y
  }

  /** IEEE `a < 1`. */
  predicate BelowOne(a: Rate) { a.Finite? && a.q < 1.0 }

  /** The two pipeline variants: the canonical recognition manager and the
      earlier marker-detection prototype. */
  datatype Variant = Canonical | Earlier

  /** The running best starts at -1. */
  const InitialBest: Rate := Finite(-1.0)

  /** A rate that can ever displace the running best: it must beat the
      initial -1, and the canonical variant also demands `rate < 1`. */
  predicate Eligible(r: Rate, v: Variant)
  {
    Greater(r, InitialBest) && (v == Canonical ==> BelowOne(r))
  }

  /** The rate of a real target is eligible exactly when it is defined (and,
      canonically, when the target has keypoints and not every one of them
      matched). */
  lemma EligibleRates(count: nat, total: nat)
    ensures Eligible(RateOf(count, total), Canonical) <==> total > 0 && count < total
    ensures Eligible(RateOf(count, total), Earlier) <==> count > 0 || total > 0
  {
    if total > 0 && count >= total {
      assert RateOf(count, total).q >= 1.0 by {
        assert RateOf(count, total).q * total as real >= 1.0 * total as real;
      }
    }
    if total > 0 && count < total {
      assert RateOf(count, total).q < 1.0 by {
        assert RateOf(count, total).q * total as real < 1.0 * total as real;
      }
    }
  }

  /** The loop over the catalog: a target replaces the running best only
      when its rate is strictly greater (and, canonically, below one). The
      result is the index of the chosen target. It is the earliest eligible
      target whose rate no eligible target exceeds. */
  function Select(rates: seq<Rate>, v: Variant): (b: Option<nat>)
    ensures b.None? <==> forall j :: 0 <= j < |rates| ==> !Eligible(rates[j], v)
    ensures b.Some? ==>
      && b.value < |rates|
      && Eligible(rates[b.value], v)
      && (forall j :: 0 <= j < |rates| && Eligible(rates[j], v) ==> !Greater(rates[j], rates[b.value]))
      && (forall j :: 0 <= j < b.value && Eligible(rates[j], v) ==> Greater(rates[b.value], rates[j]))
  {
    if |rates| == 0 then None
    else
      var prev := Select(rates[..|rates| - 1], v);
      var r := rates[|rates| - 1];
      var best := if prev.None? then InitialBest else rates[prev.value];
      if Greater(r, best) && (v == Canonical ==> BelowOne(r)) then Some(|rates| - 1) else prev
  }

  /** The canonical variant never chooses a target whose every keypoint
      matched, nor one without keypoints. */
  lemma CanonicalNeverChoosesFullMatch(counts: seq<nat>, totals: seq<nat>, i: nat)
    requires |counts| == |totals| && i < |counts|
    requires counts[i] >= totals[i]
    ensures Select(seq(|counts|, j requires 0 <= j < |counts| => RateOf(counts[j], totals[j])), Canonical) != Some(i)
  {
    EligibleRates(counts[i], totals[i]);
  }

  /** The earlier variant has no such exclusion: a lone target whose every
      keypoint matched is chosen. */
  lemma EarlierChoosesFullMatch(n: nat)
    requires n > 0
    ensures Select([RateOf(n, n)], Earlier) == Some(0)
    ensures Select([RateOf(n, n)], Canonical) == None
  {
    EligibleRates(n, n);
  }

  /** What the matching kernels leave behind for one target: `argMin[t]` is
      the frame keypoint closest to target keypoint t, and `matched` is the
      appended list of target keypoints whose match survived. */
  datatype MatchData = MatchData(argMin: seq<nat>, matched: seq<nat>)
  {
    function Count(): nat { |matched| }
  }

  /** A catalog target as far as matching is concerned. */
  datatype Target = Target(keypoints: seq<Point>, numKeypoints: nat)

  /** Every index the origin loop follows stays inside its array. */
  predicate IndicesInRange(frame: seq<Point>, target: Target, d: MatchData)
  {
    forall m :: 0 <= m < |d.matched| ==>
      && d.matched[m] < |d.argMin|
      && d.matched[m] < |target.keypoints|
      && d.argMin[d.matched[m]] < |frame|
  }

  /** The displacement (frame - target) of each matched pair, in list order. */
  function Displacements(frame: seq<Point>, target: Target, d: MatchData): (ds: seq<Point>)
    requires IndicesInRange(frame, target, d)
    ensures |ds| == |d.matched|
    ensures forall m :: 0 <= m < |ds| ==>
      ds[m] == frame[d.argMin[d.matched[m]]].Minus(target.keypoints[d.matched[m]])
  {
    seq(|d.matched|, m requires 0 <= m < |d.matched| =>
      frame[d.argMin[d.matched[m]]].Minus(target.keypoints[d.matched[m]]))
  }

  /** The sum of the displacements divided by the match count, each
      component truncated toward zero as C# `Vector2Int / int` does. */
  function MeanDisplacement(ds: seq<Point>): Point
    requires |ds| > 0
  {
    PointDiv(SumPoints(ds), |ds|)
  }

  /** Bounds on the x and y components of a displacement list. */
  predicate XWithin(ds: seq<Point>, lo: int, hi: int)
  {
    forall m :: 0 <= m < |ds| ==> lo <= ds[m].x <= hi
  }

  predicate YWithin(ds: seq<Point>, lo: int, hi: int)
  {
    forall m :: 0 <= m < |ds| ==> lo <= ds[m].y <= hi
  }

  lemma {:induction false} SumXWithin(ds: seq<Point>, lo: int, hi: int)
    requires XWithin(ds, lo, hi)
    ensures |ds| * lo <= SumPoints(ds).x <= |ds| * hi
  {
    if |ds| > 0 {
      var n := |ds| - 1;
      var init := ds[..n];
      assert XWithin(init, lo, hi) by {
        forall m | 0 <= m < |init| ensures init[m] == ds[m] { }
      }
      SumXWithin(init, lo, hi);
      assert SumPoints(ds).x == SumPoints(init).x + ds[n].x;
      MulStep(|ds|, lo);
      MulStep(|ds|, hi);
    }
  }

  lemma {:induction false} SumYWithin(ds: seq<Point>, lo: int, hi: int)
    requires YWithin(ds, lo, hi)
    ensures |ds| * lo <= SumPoints(ds).y <= |ds| * hi
  {
    if |ds| > 0 {
      var n := |ds| - 1;
      var init := ds[..n];
      assert YWithin(init, lo, hi) by {
        forall m | 0 <= m < |init| ensures init[m] == ds[m] { }
      }
      SumYWithin(init, lo, hi);
      assert SumPoints(ds).y == SumPoints(init).y + ds[n].y;
      MulStep(|ds|, lo);
      MulStep(|ds|, hi);
    }
  }

  /** A truncated quotient of a value between n*lo and n*hi lies between lo
      and hi. */
  lemma {:induction false} TruncDivWithin(s: int, n: int, lo: int, hi: int)
    requires n > 0 && n * lo <= s <= n * hi
    ensures lo <= TruncDiv(s, n) <= hi
  {
    var q := TruncDiv(s, n);
    if q > hi {
      MulMonotone(hi + 1, q, n);
      assert false;
    }
    if q < lo {
      MulMonotone(q + 1, lo, n);
      assert false;
    }
  }

  /** The mean lies within any box that contains every displacement. */
  lemma {:induction false} MeanWithin(ds: seq<Point>, xlo: int, xhi: int, ylo: int, yhi: int)
    requires |ds| > 0
    requires XWithin(ds, xlo, xhi) && YWithin(ds, ylo, yhi)
    ensures xlo <= MeanDisplacement(ds).x <= xhi
    ensures ylo <= MeanDisplacement(ds).y <= yhi
  {
    SumXWithin(ds, xlo, xhi);
    SumYWithin(ds, ylo, yhi);
    TruncDivWithin(SumPoints(ds).x, |ds|, xlo, xhi);
    TruncDivWithin(SumPoints(ds).y, |ds|, ylo, yhi);
  }

  /** When every matched pair is displaced by the same d, the origin is d. */
  lemma UniformDisplacement(ds: seq<Point>, d: Point)
    requires |ds| > 0
    requires forall m :: 0 <= m < |ds| ==> ds[m] == d
    ensures MeanDisplacement(ds) == d
  {
    MeanWithin(ds, d.x, d.x, d.y, d.y);
  }

  /** A recognised target: which catalog entry, how many of its keypoints
      matched out of how many, and where its origin lies in the frame. The
      float scale, depth and world pose are not modelled. */
  datatype MatchedTarget = MatchedTarget(index: nat, matchNum: nat, matchTotal: nat, origin: Point)

  /** The minimum rate of the canonical gate, `0.0001f`, as an exact real. */
  const MinRate: real := 0.0001

  /** The origin lies inside the view: [-width, width) x [-height, height). */
  predicate InView(p: Point, viewWidth: int, viewHeight: int)
  {
    -viewWidth <= p.x < viewWidth && -viewHeight <= p.y < viewHeight
  }

  /** The matching kernels' output for every catalog target is well formed. */
  predicate WellFormed(frame: seq<Point>, targets: seq<Target>, datas: seq<MatchData>)
  {
    && |targets| == |datas|
    && forall i :: 0 <= i < |targets| ==> IndicesInRange(frame, targets[i], datas[i])
  }

  function Rates(targets: seq<Target>, datas: seq<MatchData>): (rs: seq<Rate>)
    requires |targets| == |datas|
    ensures |rs| == |targets|
    ensures forall i :: 0 <= i < |rs| ==> rs[i] == RateOf(datas[i].Count(), targets[i].numKeypoints)
  {
    seq(|targets|, i requires 0 <= i < |targets| => RateOf(datas[i].Count(), targets[i].numKeypoints))
  }

  /** Canonical `FeatureMatch`. The result exists only when the best target
      matched more than three keypoints at a rate above 0.0001, the mean
      displacement lies inside the view, and the floating-point scale and
      depth stage (the oracle `poseAccepted`) accepts it. */
  function FeatureMatch(frame: seq<Point>, targets: seq<Target>, datas: seq<MatchData>,
                        viewWidth: int, viewHeight: int, poseAccepted: bool): (r: Option<MatchedTarget>)
    requires WellFormed(frame, targets, datas)
    ensures r.Some? ==>
      && Select(Rates(targets, datas), Canonical) == Some(r.value.index)
      && r.value.index < |targets|
      && r.value.matchNum == datas[r.value.index].Count() > 3
      && r.value.matchTotal == targets[r.value.index].numKeypoints
      && RateOf(r.value.matchNum, r.value.matchTotal) == Finite(r.value.matchNum as real / r.value.matchTotal as real)
      && MinRate < r.value.matchNum as real / r.value.matchTotal as real < 1.0
      && InView(r.value.origin, viewWidth, viewHeight)
      && r.value.origin == MeanDisplacement(Displacements(frame, targets[r.value.index], datas[r.value.index]))
      && poseAccepted
  {
    match Select(Rates(targets, datas), Canonical)
    case None => None
    case Some(i) =>
      var rate := RateOf(datas[i].Count(), targets[i].numKeypoints);
      if datas[i].Count() > 3 && Greater(rate, Finite(MinRate)) then
        var origin := MeanDisplacement(Displacements(frame, targets[i], datas[i]));
        if !InView(origin, viewWidth, viewHeight) || !poseAccepted then None
        else Some(MatchedTarget(i, datas[i].Count(), targets[i].numKeypoints, origin))
      else None
  }

  /** Conversely, a best target that clears every stage of the gate is
      reported. */
  lemma FeatureMatchAccepts(frame: seq<Point>, targets: seq<Target>, datas: seq<MatchData>,
                            viewWidth: int, viewHeight: int, i: nat)
    requires WellFormed(frame, targets, datas)
    requires Select(Rates(targets, datas), Canonical) == Some(i)
    requires datas[i].Count() > 3
    requires Greater(RateOf(datas[i].Count(), targets[i].numKeypoints), Finite(MinRate))
    requires InView(MeanDisplacement(Displacements(frame, targets[i], datas[i])), viewWidth, viewHeight)
    ensures FeatureMatch(frame, targets, datas, viewWidth, viewHeight, true).Some?
  {
  }

  /** Target keypoint counts are capped at 200, so a best match with more
      than three keypoints already has a rate of at least 4/200: the 0.0001
      rate test never rejects anything the count test lets through. */
  lemma {:induction false} RateGateImpliedByCount(count: nat, total: nat)
    requires count > 3 && 0 < total <= 200
    ensures Greater(RateOf(count, total), Finite(MinRate))
  {
    var q := count as real / total as real;
    assert q * total as real == count as real;
  }

  /** The earlier variant's result: the mean displacement, reported only when
      more than three keypoints matched. There is no rate floor and no view
      check. */
  datatype EarlierMatch = EarlierMatch(index: nat, matchNum: nat, matchTotal: nat, offset: Point)

  function EarlierFeatureMatch(frame: seq<Point>, targets: seq<Target>, datas: seq<MatchData>): (r: Option<EarlierMatch>)
    requires WellFormed(frame, targets, datas)
    ensures r.Some? ==>
      && Select(Rates(targets, datas), Earlier) == Some(r.value.index)
      && r.value.index < |targets|
      && r.value.matchNum == datas[r.value.index].Count() > 3
      && r.value.matchTotal == targets[r.value.index].numKeypoints
      && r.value.offset == MeanDisplacement(Displacements(frame, targets[r.value.index], datas[r.value.index]))
    ensures r.None? <==>
      || Select(Rates(targets, datas), Earlier).None?
      || datas[Select(Rates(targets, datas), Earlier).value].Count() <= 3
  {
    match Select(Rates(targets, datas), Earlier)
    case None => None
    case Some(i) =>
      if datas[i].Count() > 3 then
        Some(EarlierMatch(i, datas[i].Count(), targets[i].numKeypoints,
                          MeanDisplacement(Displacements(frame, targets[i], datas[i]))))
      else None
  }

  /** `Scan` in the canonical variant: a frame without keypoints ends the
      scan early, otherwise the recognition event fires exactly when
      `FeatureMatch` yields a target. */
  function Scan(numKeypoints: nat, frame: seq<Point>, targets: seq<Target>, datas: seq<MatchData>,
                viewWidth: int, viewHeight: int, poseAccepted: bool): (event: Option<MatchedTarget>)
    requires WellFormed(frame, targets, datas)
    ensures numKeypoints == 0 ==> event.None?
    ensures event.Some? ==>
      && numKeypoints > 0 && event.value.index < |datas| && datas[event.value.index].Count() > 3
      && Select(Rates(targets, datas), Canonical) == Some(event.value.index)
      && InView(event.value.origin, viewWidth, viewHeight)
    ensures numKeypoints > 0 ==>
      (event.Some? <==> FeatureMatch(frame, targets, datas, viewWidth, viewHeight, poseAccepted).Some?)
    ensures event.Some? ==> event == FeatureMatch(frame, targets, datas, viewWidth, viewHeight, poseAccepted)
  {
    if numKeypoints == 0 then None
    else FeatureMatch(frame, targets, datas, viewWidth, viewHeight, poseAccepted)
  }
}

=== FILE: scan_cadence.dfy ===
/** The frame-interval countdown of the earlier pipeline: the full
    recognition pipeline runs on a rendered frame only when the countdown
    has reached zero, and the countdown then restarts from `interval - 1`. */
module ScanCadence {
  import opened Base

  /** What one rendered frame does: whether the pipeline runs, and the
      countdown left for the next frame. */
  datatype Tick = Tick(scans: bool, nextTime: int)

  /** `OnRenderImage`'s countdown. `interval - 1` is unchecked `int`
      arithmetic, so the smallest interval wraps to the largest countdown. */
  function Step(nextTime: int, interval: int): (t: Tick)
    ensures t.scans <==> nextTime <= 0
    ensures t.scans && IsInt32(interval - 1) ==> t.nextTime == interval - 1
    ensures t.scans ==> IsInt32(t.nextTime)
    ensures !t.scans ==> t.nextTime == nextTime - 1 && t.nextTime >= 0
  {
    if nextTime <= 0 then Tick(true, Wrap32(interval - 1)) else Tick(false, nextTime - 1)
  }

  /** The countdown before frame n, starting from the initial 0. */
  function CountdownBefore(interval: int, n: nat): int
  {
    if n == 0 then 0 else Step(CountdownBefore(interval, n - 1), interval).nextTime
  }

  function ScansOnFrame(interval: int, n: nat): bool
  {
    Step(CountdownBefore(interval, n), interval).scans
  }

  /** Before frame n the countdown is the number of frames left until the
      next multiple of the interval. */
  lemma {:induction false} CountdownValue(interval: int, n: nat)
    requires 1 <= interval <= Int32Max
    ensures CountdownBefore(interval, n) == if n % interval == 0 then 0 else interval - n % interval
  {
    if n > 0 {
      CountdownValue(interval, n - 1);
      var q := (n - 1) / interval;
      var m := (n - 1) % interval;
      assert n - 1 == q * interval + m;
      assert CountdownBefore(interval, n) == Step(CountdownBefore(interval, n - 1), interval).nextTime;
      if m + 1 < interval {
        ModUnique(n, interval, q, m + 1);
      } else {
        ModUnique(n, interval, q + 1, 0);
      }
    }
  }

  /** Starting from 0 the pipeline runs on frames 0, interval, 2 * interval,
      ... and on no other frame. */
  lemma ScansEveryInterval(interval: int, n: nat)
    requires 1 <= interval <= Int32Max
    ensures ScansOnFrame(interval, n) <==> n % interval == 0
  {
    CountdownValue(interval, n);
  }

  /** With an interval of one or less (including a non-positive one set in
      the inspector) the pipeline runs on every frame, except for the
      smallest `int`, whose countdown wraps around. */
  lemma {:induction false} ShortIntervalScansEveryFrame(interval: int, n: nat)
    requires Int32Min < interval <= 1
    ensures CountdownBefore(interval, n) <= 0
    ensures ScansOnFrame(interval, n)
  {
    if n > 0 {
      ShortIntervalScansEveryFrame(interval, n - 1);
    }
  }

  /** At the smallest `int` the restarted countdown wraps to the largest
      one, so the frame after the first does not scan. */
  lemma SmallestIntervalWraps()
    ensures CountdownBefore(Int32Min, 1) == Int32Max
    ensures !ScansOnFrame(Int32Min, 1)
  {
  }
}

=== FILE: tracked_images.dfy ===
/** The forest scene manager's bookkeeping of AR-tracked images: a
    dictionary from image name to tracked image, two recency lists (actively
    tracked and limited-tracking images, most recent last), the rule that
    picks the image the forest scene is anchored to, and the image-to-scene
    table. Poses, viewport tests and scene placement are not modelled. */
module TrackedImages {
  import opened Base

  type Name = string

  /** The AR subsystem's tracking state of an image. */
  datatype TrackingState = Tracking | Limited | NotTracked

  /** The manager's state: `images` maps each known name to an opaque
      handle of its `ARTrackedImage`. */
  datatype State = State(images: map<Name, nat>, trackedOrder: seq<Name>, limitedOrder: seq<Name>)

  const Initial: State := State(map[], [], [])

  function Elems(s: seq<Name>): set<Name>
  {
    set x | x in s
  }

  lemma ElemsCons(s: seq<Name>)
    requires |s| > 0
    ensures Elems(s) == {s[0]} + Elems(s[1..])
    ensures NoDup(s) ==> NoDup(s[1..]) && s[0] !in s[1..]
  {
    assert forall y :: y in s <==> y == s[0] || y in s[1..] by {
      assert s == [s[0]] + s[1..];
    }
  }

  /** The position of the first occurrence of x. */
  function FirstIndex(s: seq<Name>, x: Name): (i: nat)
    requires x in s
    ensures i < |s| && s[i] == x && x !in s[..i]
  {
    if s[0] == x then 0
    else
      var j := FirstIndex(s[1..], x);
      assert s[..j + 1] == [s[0]] + s[1..][..j];
      j + 1
  }

  /** `List.Remove`: drops the first occurrence of x, if any. */
  function RemoveFirst(s: seq<Name>, x: Name): (r: seq<Name>)
    ensures x !in s ==> r == s
    ensures x in s ==> r == s[..FirstIndex(s, x)] + s[FirstIndex(s, x) + 1..]
  {
    if |s| == 0 then []
    else if s[0] == x then s[1..]
    else
      var rest := RemoveFirst(s[1..], x);
      assert x in s[1..] ==> [s[0]] + rest == s[..FirstIndex(s, x)] + s[FirstIndex(s, x) + 1..] by {
        if x in s[1..] {
          var j := FirstIndex(s[1..], x);
          assert FirstIndex(s, x) == j + 1;
          assert s[..j + 1] == [s[0]] + s[1..][..j];
          assert s[j + 2..] == s[1..][j + 1..];
        }
      }
      [s[0]] + rest
  }

  /** The sequence with every occurrence of x dropped: the relative order of
      every other name. */
  function Without(s: seq<Name>, x: Name): (r: seq<Name>)
    ensures x !in r
    ensures Elems(r) == Elems(s) - {x}
  {
    if |s| == 0 then []
    else
      ElemsCons(s);
      if s[0] == x then Without(s[1..], x)
      else
        var rest := Without(s[1..], x);
        ElemsCons([s[0]] + rest);
        assert ([s[0]] + rest)[1..] == rest;
        [s[0]] + rest
  }

  lemma {:induction false} WithoutRemoveFirst(s: seq<Name>, x: Name)
    ensures Without(RemoveFirst(s, x), x) == Without(s, x)
  {
    if |s| > 0 && s[0] != x {
      WithoutRemoveFirst(s[1..], x);
      assert RemoveFirst(s, x) == [s[0]] + RemoveFirst(s[1..], x);
      assert ([s[0]] + RemoveFirst(s[1..], x))[1..] == RemoveFirst(s[1..], x);
    }
  }

  lemma {:induction false} WithoutAppend(s: seq<Name>, x: Name)
    ensures Without(s + [x], x) == Without(s, x)
  {
    if |s| > 0 {
      WithoutAppend(s[1..], x);
      assert (s + [x])[1..] == s[1..] + [x];
    } else {
      assert ([x])[1..] == [];
    }
  }

  /** In a duplicate-free list the first occurrence is the only one. */
  lemma {:induction false} RemoveFirstNoDup(s: seq<Name>, x: Name)
    requires NoDup(s)
    ensures NoDup(RemoveFirst(s, x))
    ensures Elems(RemoveFirst(s, x)) == Elems(s) - {x}
  {
    if |s| > 0 {
      ElemsCons(s);
      if s[0] != x {
        var rest := RemoveFirst(s[1..], x);
        RemoveFirstNoDup(s[1..], x);
        var r := [s[0]] + rest;
        assert RemoveFirst(s, x) == r;
        assert r[1..] == rest;
        ElemsCons(r);
        assert s[0] !in Elems(rest);
        ConsNoDup(s[0], rest);
      }
    }
  }

  lemma ConsNoDup(a: Name, s: seq<Name>)
    requires NoDup(s) && a !in s
    ensures NoDup([a] + s)
  {
    var r := [a] + s;
    forall i, j | 0 <= i < j < |r| ensures r[i] != r[j] {
      assert r[j] == s[j - 1];
      if i > 0 {
        assert r[i] == s[i - 1];
      }
    }
  }

  lemma AppendNoDup(s: seq<Name>, x: Name)
    requires NoDup(s) && x !in s
    ensures NoDup(s + [x])
    ensures Elems(s + [x]) == Elems(s) + {x}
  {
  }

  /** The invariant the manager keeps: both lists are duplicate-free and
      disjoint, and together they list exactly the dictionary's names. */
  predicate Valid(st: State)
  {
    && NoDup(st.trackedOrder)
    && NoDup(st.limitedOrder)
    && Elems(st.trackedOrder) !! Elems(st.limitedOrder)
    && Elems(st.trackedOrder) + Elems(st.limitedOrder) == st.images.Keys
  }

  /** Whether a Limited event is acted on: a name already in the limited
      list is a duplicate event, unless the caller asks to retrack. */
  predicate LimitedTakesEffect(st: State, name: Name, retrack: bool)
  {
    name !in st.limitedOrder || retrack
  }

  /** `UpdateImages(image, retrack)`. */
  function UpdateImages(st: State, name: Name, image: nat, state: TrackingState, retrack: bool): (r: State)
    ensures state == Tracking ==>
      && r.images == st.images[name := image]
      && |r.trackedOrder| > 0 && r.trackedOrder[|r.trackedOrder| - 1] == name
    ensures state == Limited && LimitedTakesEffect(st, name, retrack) ==>
      && r.images == st.images[name := image]
      && |r.limitedOrder| > 0 && r.limitedOrder[|r.limitedOrder| - 1] == name
    ensures state == Limited && !LimitedTakesEffect(st, name, retrack) ==> r == st
    ensures state == NotTracked ==> r.images == st.images - {name}
  {
    match state
    case Tracking =>
      State(st.images[name := image], RemoveFirst(st.trackedOrder, name) + [name], RemoveFirst(st.limitedOrder, name))
    case Limited =>
      if LimitedTakesEffect(st, name, retrack) then
        State(st.images[name := image], RemoveFirst(st.trackedOrder, name), RemoveFirst(st.limitedOrder, name) + [name])
      else st
    case NotTracked =>
      State(st.images - {name}, RemoveFirst(st.trackedOrder, name), RemoveFirst(st.limitedOrder, name))
  }

  /** After removing a name from both lists of a valid state, the lists are
      duplicate-free, disjoint, free of the name, and list every other
      known name. */
  lemma RemovedFromBoth(st: State, name: Name)
    requires Valid(st)
    ensures NoDup(RemoveFirst(st.trackedOrder, name)) && NoDup(RemoveFirst(st.limitedOrder, name))
    ensures name !in RemoveFirst(st.trackedOrder, name) && name !in RemoveFirst(st.limitedOrder, name)
    ensures Elems(RemoveFirst(st.trackedOrder, name)) !! Elems(RemoveFirst(st.limitedOrder, name))
    ensures Elems(RemoveFirst(st.trackedOrder, name)) + Elems(RemoveFirst(st.limitedOrder, name)) == st.images.Keys - {name}
  {
    RemoveFirstNoDup(st.trackedOrder, name);
    RemoveFirstNoDup(st.limitedOrder, name);
    assert name !in Elems(RemoveFirst(st.trackedOrder, name));
    assert name !in Elems(RemoveFirst(st.limitedOrder, name));
  }

  /** Putting a name that is in neither list at the end of one of them. */
  lemma AddedToOne(t: seq<Name>, l: seq<Name>, name: Name, image: nat, images: map<Name, nat>)
    requires NoDup(t) && NoDup(l) && name !in t && name !in l
    requires Elems(t) !! Elems(l) && Elems(t) + Elems(l) == images.Keys - {name}
    ensures Valid(State(images[name := image], t + [name], l))
    ensures Valid(State(images[name := image], t, l + [name]))
  {
    AppendNoDup(t, name);
    AppendNoDup(l, name);
    assert name !in Elems(t) && name !in Elems(l);
  }

  /** Every event keeps the invariant, and on a valid state the name then
      appears exactly where its event puts it: last in the tracked list only
      (Tracking), last in the limited list only (Limited, when acted on), or
      nowhere (any other state). */
  lemma UpdatePreservesValid(st: State, name: Name, image: nat, state: TrackingState, retrack: bool)
    requires Valid(st)
    ensures Valid(UpdateImages(st, name, image, state, retrack))
    ensures state == Tracking ==>
      name !in UpdateImages(st, name, image, state, retrack).limitedOrder
    ensures state == Limited && LimitedTakesEffect(st, name, retrack) ==>
      name !in UpdateImages(st, name, image, state, retrack).trackedOrder
    ensures state == NotTracked ==>
      && name !in UpdateImages(st, name, image, state, retrack).trackedOrder
      && name !in UpdateImages(st, name, image, state, retrack).limitedOrder
  {
    RemovedFromBoth(st, name);
    var t := RemoveFirst(st.trackedOrder, name);
    var l := RemoveFirst(st.limitedOrder, name);
    match state
    case Tracking =>
      AddedToOne(t, l, name, image, st.images);
    case Limited =>
      if LimitedTakesEffect(st, name, retrack) {
        AddedToOne(t, l, name, image, st.images);
      }
    case NotTracked =>
      assert (st.images - {name}).Keys == st.images.Keys - {name};
  }

  /** An event about one name leaves every other name's dictionary entry,
      and the relative order of the other names in both lists, unchanged. */
  lemma UpdateLeavesOthers(st: State, name: Name, image: nat, state: TrackingState, retrack: bool, other: Name)
    requires other != name
    ensures other in UpdateImages(st, name, image, state, retrack).images <==> other in st.images
    ensures other in st.images ==> UpdateImages(st, name, image, state, retrack).images[other] == st.images[other]
    ensures Without(UpdateImages(st, name, image, state, retrack).trackedOrder, name) == Without(st.trackedOrder, name)
    ensures Without(UpdateImages(st, name, image, state, retrack).limitedOrder, name) == Without(st.limitedOrder, name)
  {
    WithoutRemoveFirst(st.trackedOrder, name);
    WithoutRemoveFirst(st.limitedOrder, name);
    WithoutAppend(RemoveFirst(st.trackedOrder, name), name);
    WithoutAppend(RemoveFirst(st.limitedOrder, name), name);
  }

  /** One batch of `trackedImagesChanged`: added, then updated, then removed
      images, each handled in order. */
  datatype Event = Event(name: Name, image: nat, state: TrackingState)

  function ApplyEvents(st: State, events: seq<Event>): State
    decreases |events|
  {
    if |events| == 0 then st
    else ApplyEvents(UpdateImages(st, events[0].name, events[0].image, events[0].state, false), events[1..])
  }

  lemma {:induction false} ApplyEventsPreservesValid(st: State, events: seq<Event>)
    requires Valid(st)
    ensures Valid(ApplyEvents(st, events))
    decreases |events|
  {
    if |events| > 0 {
      UpdatePreservesValid(st, events[0].name, events[0].image, events[0].state, false);
      ApplyEventsPreservesValid(UpdateImages(st, events[0].name, events[0].image, events[0].state, false), events[1..]);
    }
  }

  lemma InitialValid()
    ensures Valid(Initial)
  {
    assert Elems([]) == {};
  }

  /** The image the scene follows: the most recently tracked image if any is
      actively tracked, else the most recent limited-tracking image, else
      none. On a valid state the chosen name has a dictionary entry (so
      looking up its transform succeeds), and there is a chosen name exactly
      when some image is known. */
  function CurrentImage(st: State): (r: Option<Name>)
    ensures |st.trackedOrder| > 0 ==> r == Some(st.trackedOrder[|st.trackedOrder| - 1])
    ensures |st.trackedOrder| == 0 && |st.limitedOrder| > 0 ==> r == Some(st.limitedOrder[|st.limitedOrder| - 1])
    ensures Valid(st) ==> (r.Some? ==> r.value in st.images)
    ensures Valid(st) ==> (r.None? <==> |st.images| == 0)
  {
    MostRecentIsKnown(st);
    if |st.trackedOrder| > 0 then Some(st.trackedOrder[|st.trackedOrder| - 1])
    else if |st.limitedOrder| > 0 then Some(st.limitedOrder[|st.limitedOrder| - 1])
    else None
  }

  /** The last entry of either recency list is a known image, and both
      lists are empty only when no image is known. */
  lemma MostRecentIsKnown(st: State)
    ensures Valid(st) && |st.trackedOrder| > 0 ==> st.trackedOrder[|st.trackedOrder| - 1] in st.images
    ensures Valid(st) && |st.limitedOrder| > 0 ==> st.limitedOrder[|st.limitedOrder| - 1] in st.images
    ensures Valid(st) && |st.trackedOrder| == 0 && |st.limitedOrder| == 0 ==> |st.images| == 0
  {
    if Valid(st) {
      if |st.trackedOrder| > 0 {
        assert st.trackedOrder[|st.trackedOrder| - 1] in Elems(st.trackedOrder);
      }
      if |st.limitedOrder| > 0 {
        assert st.limitedOrder[|st.limitedOrder| - 1] in Elems(st.limitedOrder);
      }
      if |st.trackedOrder| == 0 && |st.limitedOrder| == 0 {
        assert Elems(st.trackedOrder) == {} && Elems(st.limitedOrder) == {};
      }
    }
  }

  /** A Tracking event makes its image the current one; a Limited event does
      so when no image is actively tracked afterwards. */
  lemma EventSelectsImage(st: State, name: Name, image: nat, state: TrackingState, retrack: bool)
    requires state == Tracking || (state == Limited && LimitedTakesEffect(st, name, retrack)
                                   && |UpdateImages(st, name, image, state, retrack).trackedOrder| == 0)
    ensures CurrentImage(UpdateImages(st, name, image, state, retrack)) == Some(name)
  {
  }

  /** `imageToScene`: scenes in order, each registering all of its image
      names; a later scene overwrites an earlier one. The value is the
      scene's index. */
  function ImageToScene(scenes: seq<set<Name>>): (m: map<Name, nat>)
    ensures forall img :: img in m <==> exists i :: 0 <= i < |scenes| && img in scenes[i]
    ensures forall img :: img in m ==>
      && m[img] < |scenes| && img in scenes[m[img]]
      && (forall i :: m[img] < i < |scenes| ==> img !in scenes[i])
  {
    if |scenes| == 0 then map[]
    else
      var n := |scenes| - 1;
      var prev := ImageToScene(scenes[..n]);
      assert forall i :: 0 <= i < n ==> scenes[..n][i] == scenes[i];
      map img | img in prev.Keys + scenes[n] :: if img in scenes[n] then n else prev[img]
  }

  /** What the scene view holds between frames. */
  datatype View = View(currentImageName: Name, currentScene: Option<nat>, sceneVisible: bool)

  const InitialView: View := View("", None, false)

  /** One `Update` after the viewed-image check. `placed` is set when the
      scene is (re)positioned on the current image; `missingScene` when the
      image has no scene, where `imageToScene[imageName]` throws after
      `currentImageName` was already assigned. */
  datatype Frame = Frame(view: View, placed: bool, missingScene: bool)

  function UpdateView(st: State, v: View, imageToScene: map<Name, nat>): (f: Frame)
    ensures f.placed ==> CurrentImage(st).Some? && v.currentImageName != CurrentImage(st).value
    ensures f.placed ==>
      && f.view.currentImageName == CurrentImage(st).value
      && f.view.currentImageName in imageToScene
      && f.view.currentScene == Some(imageToScene[f.view.currentImageName])
    ensures CurrentImage(st).None? ==> !f.placed && !f.missingScene && f.view == v.(sceneVisible := false)
    ensures CurrentImage(st).Some? && v.currentImageName == CurrentImage(st).value ==> f == Frame(v, false, false)
    ensures f.missingScene <==>
      && CurrentImage(st).Some?
      && v.currentImageName != CurrentImage(st).value
      && CurrentImage(st).value !in imageToScene
    ensures f.missingScene ==> !f.placed && f.view == v.(currentImageName := CurrentImage(st).value)
    ensures (CurrentImage(st).Some? && v.currentImageName != CurrentImage(st).value
             && CurrentImage(st).value in imageToScene) ==> f.placed
    ensures f.placed ==> f.view.sceneVisible == (f.view.currentScene != v.currentScene || v.sceneVisible)
  {
    match CurrentImage(st)
    case None =>
      Frame(v.(sceneVisible := false), false, false)
    case Some(name) =>
      if v.currentImageName == name then Frame(v, false, false)
      else if name !in imageToScene then Frame(v.(currentImageName := name), false, true)
      else
        var scene := imageToScene[name];
        var visible := if Some(scene) != v.currentScene then true else v.sceneVisible;
        Frame(View(name, Some(scene), visible), true, false)
  }

  /** When every image is lost the scene is hidden but the current name is
      kept; if that same image is then tracked again the scene is neither
      re-placed nor shown again. */
  lemma SameImageStaysHidden(name: Name, image: nat, scene: nat)
    ensures
      var shown := View(name, Some(scene), true);
      var lost := UpdateView(Initial, shown, map[name := scene]).view;
      var back := UpdateImages(Initial, name, image, Tracking, false);
      && !lost.sceneVisible
      && UpdateView(back, lost, map[name := scene]) == Frame(lost, false, false)
  {
    var back := UpdateImages(Initial, name, image, Tracking, false);
    assert back.trackedOrder == [name];
  }

  /** A different image of the same scene, tracked after every image was
      lost, is placed but its scene stays hidden. */
  lemma SameSceneStaysHidden(a: Name, b: Name, image: nat, scene: nat)
    requires a != b
    ensures
      var m := map[a := scene, b := scene];
      var shown := View(a, Some(scene), true);
      var lost := UpdateView(Initial, shown, m).view;
      var next := UpdateView(UpdateImages(Initial, b, image, Tracking, false), lost, m);
      && next.placed
      && !next.view.sceneVisible
  {
    var back := UpdateImages(Initial, b, image, Tracking, false);
    assert back.trackedOrder == [b];
  }

  // ---------------------------------------------------------------------
  // Corrected view update: losing every image forgets the scene, so the
  // next tracked image is placed and shown again.

  /** A view is consistent when a held scene is visible and a named image
      with a scene holds that scene. */
  predicate Consistent(v: View, imageToScene: map<Name, nat>)
  {
    && (v.currentScene.Some? ==> v.sceneVisible)
    && ((v.currentImageName != "" && v.currentImageName in imageToScene)
          ==> v.currentScene == Some(imageToScene[v.currentImageName]))
  }

  /** The corrected update keeps views consistent, and whenever the current
      image has a scene, that scene is held and visible afterwards. */
  function UpdateViewCorrected(st: State, v: View, imageToScene: map<Name, nat>): (f: Frame)
    ensures CurrentImage(st).None? ==> f.view == InitialView && !f.placed
    ensures Consistent(v, imageToScene) ==> Consistent(f.view, imageToScene)
    ensures (Consistent(v, imageToScene) && CurrentImage(st).Some? && CurrentImage(st).value != ""
             && CurrentImage(st).value in imageToScene) ==>
      && f.view.sceneVisible
      && f.view.currentScene == Some(imageToScene[CurrentImage(st).value])
  {
    match CurrentImage(st)
    case None => Frame(InitialView, false, false)
    case Some(_) => UpdateView(st, v, imageToScene)
  }

  lemma InitialViewConsistent(imageToScene: map<Name, nat>)
    ensures Consistent(InitialView, imageToScene)
  {
  }
}
